=== FILE: README.md ===
# Global Gains League waitlist — a Dafny model of its referral logic

The Global Gains League site is a pre-launch waitlist. A visitor leaves an email
address, gets a referral code and a shareable link, and unlocks rewards as friends
sign up through that link: VIP priority at five referrals and a trading eBook at ten.
This project models the decision logic of that site and proves properties about it:

- the reward tiers and progress bars of the referral dashboard;
- the client-side referral code and the launch countdown;
- the sign-up panel of the landing page: the remembered address in browser storage,
  the "welcome back" flag, the submit decision tree around the `register_lead`
  database procedure, the three views and the "Not you?" reset;
- the `send-welcome-email` serverless function, including its address pattern;
- the admin page: CSV export, referral total, badge, login checks and the admin flag;
- the older single-goal hero form;
- the `/dashboard?email=` lookup page.

Everything the code talks to is an input. That covers the browser storage, the
answer of `register_lead`, table lookups, authentication events, the mail provider's
verdict, the random draws and the clock. The zod address check is a parameter
`isEmail`, and so is the locale date rendering. JavaScript string behaviour lives in
`JsText`: truthiness of nullable strings, `\s`, `trim`, `toLowerCase`, `join`,
`split` and `toString` of counts.

Modules, one per file:

| file | module | models |
|---|---|---|
| js_text.dfy | JsText | the JavaScript string operations the code relies on |
| leads.dfy | Leads | `LeadData`, the referral link, the `register_lead` call and answer |
| referral_tiers.dfy | ReferralTiers | `src/components/ReferralDashboard.tsx` |
| referral_code.dfy | ReferralCode | `generateReferralCode` in `src/components/VideoScrubbingHero.tsx` |
| countdown.dfy | Countdown | `useCountdown` in `src/components/VideoScrubbingHero.tsx` |
| signup_flow.dfy | SignupFlow | the form logic of `src/components/VideoScrubbingHero.tsx` |
| email_regex.dfy | EmailRegex | `EMAIL_REGEX` of `supabase/functions/send-welcome-email/index.ts` |
| welcome_email.dfy | WelcomeEmail | the request handler of the same function |
| admin_panel.dfy | AdminPanel | `src/pages/Admin.tsx` |
| legacy_hero.dfy | LegacyHero | `src/components/HeroSection.tsx` |
| dashboard_page.dfy | DashboardPage | `src/pages/Dashboard.tsx` |

## Model

| member | source | states |
|---|---|---|
| JsText.Trim | src/components/VideoScrubbingHero.tsx:18-19 | the schema's trimmed text is one contiguous slice of the input, starting after the leading whitespace, with no whitespace at either end |
| JsText.LowerIdempotent | src/components/VideoScrubbingHero.tsx:279 | lower-casing an already lower-cased address changes nothing |
| JsText.SplitJoin | src/pages/Admin.tsx:149 | splitting a joined string on its one-character separator gives back the parts, as long as no part contains the separator |
| JsText.DecimalRoundTrip | src/pages/Admin.tsx:144 | the decimal rendering of a count reads back as that count |
| JsText.DecimalInjective | src/pages/Admin.tsx:144 | distinct counts render as distinct strings |
| Leads.ReferralLink | src/components/ReferralDashboard.tsx:25 | the link is the origin, then "?ref=", then the code, each in its place |
| Leads.LinkRoundTrip | src/components/ReferralDashboard.tsx:25 | the code read back from a shared link is the code it was built from |
| Leads.LinkInjective | src/components/ReferralDashboard.tsx:25 | two links of one origin are equal exactly when their codes are |
| Leads.InboundRefCode | src/components/VideoScrubbingHero.tsx:344 | the inbound code is passed on when it is a non-empty string and is null otherwise |
| ReferralTiers.Level | src/components/ReferralDashboard.tsx:27-28 | level 1 is reached exactly at five referrals and level 2 exactly at ten |
| ReferralTiers.UnlockOrdering | src/components/ReferralDashboard.tsx:27-28 | the eBook tier implies the VIP tier, and a growing count never relocks a tier |
| ReferralTiers.Tier1Progress | src/components/ReferralDashboard.tsx:31 | the VIP bar is within [0, 100], is 100 exactly when VIP is unlocked, and is 20 per referral before that |
| ReferralTiers.Tier2Progress | src/components/ReferralDashboard.tsx:32-34 | the eBook bar is 0 while VIP is locked, is within [0, 100], and is 100 exactly when the eBook is unlocked |
| ReferralTiers.OverallProgress | src/components/ReferralDashboard.tsx:35 | the combined bar is within [0, 100], is 50 at five referrals, and is 100 exactly from ten on |
| ReferralTiers.ProgressMonotonic | src/components/ReferralDashboard.tsx:31-35 | more referrals never lower any of the three bars |
| ReferralTiers.Tier1MoreToUnlock | src/components/ReferralDashboard.tsx:183-191 | "N more to unlock" shows only while VIP is locked, and then N is positive and N plus the count is five |
| ReferralTiers.Tier2MoreToUnlock | src/components/ReferralDashboard.tsx:222-230 | "N more to unlock" shows only while the eBook is locked, and then N is positive and N plus the count is ten |
| ReferralTiers.CounterLabel | src/components/ReferralDashboard.tsx:113 | the singular label is used exactly for one referral |
| ReferralTiers.MotivationFor | src/components/ReferralDashboard.tsx:294-298 | no hint once the eBook is unlocked, "keep sharing" for a VIP, "share your link" before VIP |
| ReferralTiers.DashboardLink | src/components/ReferralDashboard.tsx:25 | the dashboard's link hands back the lead's own code |
| ReferralTiers.TierListMonotonic | src/components/ReferralDashboard.tsx:31-35 | in a policy stated as a list of ascending thresholds, every tier's bar is within [0, 100] and grows with the count |
| ReferralTiers.DashboardFollowsTierList | src/components/ReferralDashboard.tsx:31-35 | the dashboard's three bars are that list policy's bars for the thresholds 5 and 10 |
| ReferralCode.AlphabetIndex | src/components/VideoScrubbingHero.tsx:35 | every code character has a position in the 36-character alphabet |
| ReferralCode.AlphabetIsCodeChars | src/components/VideoScrubbingHero.tsx:35 | the alphabet has 36 characters, all letters A-Z or digits, each at its own position |
| ReferralCode.GenerateReferralCode | src/components/VideoScrubbingHero.tsx:34-41 | the code has nine characters, starts with "REF", and its last six are the alphabet letters the draws pick, in order |
| ReferralCode.DrawsOf | src/components/VideoScrubbingHero.tsx:34-41 | every well-formed code comes from a valid sequence of six draws |
| ReferralCode.DrawsDetermineCode | src/components/VideoScrubbingHero.tsx:34-41 | two well-formed codes with the same draws are equal |
| Countdown.Tick | src/components/VideoScrubbingHero.tsx:60-75 | a non-positive difference keeps the previous value; a positive one gives hours below 24, minutes and seconds below 60, and a total within one second below the difference |
| Countdown.SplitIsIntegerDivision | src/components/VideoScrubbingHero.tsx:68-73 | the real-number split equals whole days and the integer remainders of hours, minutes and seconds |
| Countdown.IntegerSplitIsExact | src/components/VideoScrubbingHero.tsx:68-73 | the whole days and the hour, minute and second remainders add up to the difference less under one second |
| Countdown.SplitIsExact | src/components/VideoScrubbingHero.tsx:68-73 | the split keeps every unit below its carry and loses less than one second |
| EmailRegex.RegexIffShape | supabase/functions/send-welcome-email/index.ts:15 | the pattern accepts exactly the strings with no whitespace, one '@' with something before it, and a dot strictly inside the domain |
| EmailRegex.Test | supabase/functions/send-welcome-email/index.ts:42 | the two-scan loop check (the whole address, then its domain) answers exactly as the pattern does |
| WelcomeEmail.WelcomeMail | supabase/functions/send-welcome-email/index.ts:94-124 | the mail goes to the requested address alone and its body carries the referral code |
| WelcomeEmail.Gate | supabase/functions/send-welcome-email/index.ts:19-55 | preflight first, then the key, then an unreadable body as the generic 500, then the body checks in order; a request gets through exactly when all of them pass |
| WelcomeEmail.Handle | supabase/functions/send-welcome-email/index.ts:17-187 | the status is 200, 400, 404 or 500; a request the gate stops gets exactly the gate's answer and no mail, so an unreadable body is the generic 500; a mail is sent exactly for a request past the gate whose (email, code) pair is on record; 200 means preflight or a sent mail the provider accepted |
| WelcomeEmail.PreflightShortCircuits | supabase/functions/send-welcome-email/index.ts:19-21 | OPTIONS gets the CORS-only answer whatever else holds |
| WelcomeEmail.MissingKeyFirst | supabase/functions/send-welcome-email/index.ts:27-30 | without the provider key the answer is the generic 500 whatever the body says |
| WelcomeEmail.BodyCheckOrder | supabase/functions/send-welcome-email/index.ts:35-55 | a missing email is reported first, then a malformed one, and the referral code only for a well-formed email |
| WelcomeEmail.LookupDecides | supabase/functions/send-welcome-email/index.ts:58-83 | a client that cannot be created is the generic 500, a lookup error a 500, an unknown pair a 404, and a provider failure after sending the generic 500 |
| SignupFlow.OnMount | src/components/VideoScrubbingHero.tsx:208-215 | a remembered address switches on the welcome-back view and is kept for display; no address changes nothing |
| SignupFlow.OnEmailChange | src/components/VideoScrubbingHero.tsx:234-245 | the flag is on after typing exactly when the text matches the remembered address ignoring case, or it was on and nothing is remembered |
| SignupFlow.ParseEmail | src/components/VideoScrubbingHero.tsx:18-21 | the trimmed text is accepted exactly when the address check passes and it has at most 255 characters; otherwise the first failing check's message |
| SignupFlow.Submit | src/components/VideoScrubbingHero.tsx:266-399 | a rejected address changes nothing and a remembered one only switches on the welcome-back view, with no call and no write; otherwise the normalized address is stored and sent, and the typed text and welcome-back flag stay as they were; "23505" leads to the dashboard page without a lead and another error fails, both leaving the client's code and link in storage; success shows the server's code, or the client's if the server gave none, in the lead, the stored code and link, and the welcome-mail request |
| SignupFlow.HandleSubmit | src/components/VideoScrubbingHero.tsx:293 | the submit draws a well-formed code, and when the server returns none the lead gets that code |
| SignupFlow.FailureRemembersAddress | src/components/VideoScrubbingHero.tsx:335-337 | the address is stored before the call, so after a generic failure a retry with it stops at the returning-user check without calling `register_lead` |
| SignupFlow.JoinedMailRequestHasFields | src/components/VideoScrubbingHero.tsx:377-378 | the welcome-mail request after a successful submit passes the function's presence checks on both fields |
| SignupFlow.JoinShowsDashboard | src/components/VideoScrubbingHero.tsx:360-373 | from the sign-up form, a successful submit switches the panel to the new lead's referral dashboard with the shown code and no referrals |
| SignupFlow.ViewOf | src/components/VideoScrubbingHero.tsx:570-701 | exactly one view: welcome back if flagged, showing the remembered address, else the sign-up form without a lead, else the referral dashboard |
| SignupFlow.ContinueTarget | src/components/VideoScrubbingHero.tsx:606 | "Continue to Dashboard" goes to the remembered address, and only when there is one |
| SignupFlow.NotYou | src/components/VideoScrubbingHero.tsx:615-623 | all three storage entries, the flag, the remembered address and the input are cleared; the lead stays |
| SignupFlow.NotYouStaysSignedOut | src/components/VideoScrubbingHero.tsx:234-245 | after "Not you?" no typing brings the welcome-back view back |
| AdminPanel.CsvFields | src/pages/Admin.tsx:141-147 | a row has the five cells: email, code, the count in decimal digits without a leading zero that read back as the count, the referrer or "" when there is none, and the date |
| AdminPanel.CsvLines | src/pages/Admin.tsx:140-149 | the header line, then one line per lead in order |
| AdminPanel.RowLineAvoids | src/pages/Admin.tsx:141-148 | a row line holds a non-comma character only if one of its cells does |
| AdminPanel.ExportCsv | src/pages/Admin.tsx:149 | the file starts with the header line, and is just that line without leads |
| AdminPanel.HeaderLineAvoidsBreak | src/pages/Admin.tsx:140 | the header line contains no line break |
| AdminPanel.HeaderLineCells | src/pages/Admin.tsx:140 | splitting the header line at commas gives back the five column names |
| AdminPanel.CsvHasOneLinePerLead | src/pages/Admin.tsx:149 | while no cell holds a line break, the file splits into exactly the leads count plus one lines, which are the header and the rows |
| AdminPanel.CsvRowRoundTrip | src/pages/Admin.tsx:141-149 | while no cell holds a line break or a comma, each lead's cells are read back from its line |
| AdminPanel.TotalReferrals | src/pages/Admin.tsx:297 | the total is 0 for no leads and the count itself for one lead, is at least every lead's count, and is 0 exactly when every count is 0 |
| AdminPanel.TotalAppend | src/pages/Admin.tsx:297 | the total over two lists put together is the sum of their totals |
| AdminPanel.ReduceAddsTotal | src/pages/Admin.tsx:297 | the front-to-back `reduce` from any starting value adds the total to it |
| AdminPanel.TotalFront | src/pages/Admin.tsx:297 | the first lead adds its count to the total of the rest |
| AdminPanel.TotalIsReduce | src/pages/Admin.tsx:297 | the card's total is exactly the `reduce` from 0 over the fetched leads |
| AdminPanel.TotalWithout | src/pages/Admin.tsx:297 | removing one lead takes exactly its count off the total |
| AdminPanel.TotalIgnoresOrder | src/pages/Admin.tsx:297 | any rearrangement of the same leads has the same total, so the query's ordering does not change the card |
| AdminPanel.BadgeMatchesFirstTier | src/pages/Admin.tsx:343 | the badge is highlighted exactly when the lead has unlocked the first reward tier |
| AdminPanel.ReferredByCell | src/pages/Admin.tsx:351 | the table cell is never empty and shows the referrer when there is one |
| AdminPanel.ReferrerCellsAgree | src/pages/Admin.tsx:145 | the CSV cell is empty exactly where the table shows "-" for a missing referrer, and both show the same referrer otherwise |
| AdminPanel.ExportFileName | src/pages/Admin.tsx:154 | the file name starts with "leads-" and ends with ".csv" |
| AdminPanel.FileNameCarriesDate | src/pages/Admin.tsx:154 | for an ISO timestamp the name carries its date part |
| AdminPanel.LoginCheck | src/pages/Admin.tsx:11-14 | sign-in is attempted exactly for a valid address and a password of six or more characters; otherwise the address's message comes first |
| AdminPanel.Step | src/pages/Admin.tsx:34-137 | a sign-out event clears user, flag and leads; a role answer sets only the flag, to whether the row was found; a leads answer with data replaces the leads whoever is signed in, one without leaves them; logout clears flag and leads |
| AdminPanel.RoleLookupFor | src/pages/Admin.tsx:40-56 | a role lookup starts exactly for an event that carries a signed-in user, and it is for that user |
| AdminPanel.AdminIffLatestRoleRow | src/pages/Admin.tsx:34-137 | from the initial state, the admin flag is on exactly when the latest deciding event was a role lookup that found the admin row |
| AdminPanel.LeadsComeFromFetch | src/pages/Admin.tsx:83-91 | from the initial state the held leads are empty or exactly the data of one leads answer received |
| AdminPanel.ViewOf | src/pages/Admin.tsx:160-297 | login screen without a user, access denied for a user who is not admin, and otherwise the leads with the "Total Referrals" card equal to the page's `reduce` over them |
| AdminPanel.LogoutHidesLeads | src/pages/Admin.tsx:133-137 | after logout no leads are shown, and after the sign-out event the page is back at its initial state |
| AdminPanel.LateFetchStaysHidden | src/pages/Admin.tsx:44-46 | a leads answer arriving after logout and sign-out refills the list, but the page stays on the login screen |
| LegacyHero.CheckWeakerThanPattern | src/components/HeroSection.tsx:32 | every address the welcome-mail pattern accepts passes this check, and so does a lone "@" |
| LegacyHero.Submit | src/components/HeroSection.tsx:29-84 | an address that is empty or has no '@' makes no call; otherwise the address goes out as typed; "23505" and other errors keep the lead; success sets the lead with the server's code and count 0 |
| LegacyHero.DuplicateKeepsForm | src/components/HeroSection.tsx:52-58 | a duplicate address leaves a fresh visitor on the sign-up form |
| LegacyHero.Progress | src/components/HeroSection.tsx:109 | the bar is 0 without a lead, within [0, 100], and 100 exactly from five referrals |
| LegacyHero.ProgressIsFirstTier | src/components/HeroSection.tsx:109 | the bar equals the newer dashboard's VIP bar |
| LegacyHero.NoteFor | src/components/HeroSection.tsx:235-243 | "Priority Access Unlocked" exactly from five referrals; otherwise the positive remainder to five, plural exactly when it is not 1 |
| LegacyHero.NoteAgreesWithFirstTier | src/components/HeroSection.tsx:235-243 | the same threshold and remainder as the newer dashboard's VIP card |
| LegacyHero.NoteText | src/components/HeroSection.tsx:238-242 | the line starts with the remainder in decimal digits |
| LegacyHero.LinkOf | src/components/HeroSection.tsx:87-89 | the link is empty without a lead and otherwise hands back the lead's code |
| LegacyHero.ViewOf | src/components/HeroSection.tsx:124 | the form shows exactly when there is no lead |
| DashboardPage.LookupKey | src/pages/Dashboard.tsx:38 | the key equals the parameter ignoring case and is already lower-case |
| DashboardPage.Load | src/pages/Dashboard.tsx:20-69 | without an address: a redirect, no lookup, and the spinner stays; otherwise the lower-cased lookup, loading cleared, the lead exactly when the row is found, and a redirect exactly when it is not |
| DashboardPage.WelcomeText | src/pages/Dashboard.tsx:54 | "You have" and the count in decimal, ending in "s." exactly when the count is not 1 |
| DashboardPage.ViewOf | src/pages/Dashboard.tsx:72-90 | spinner while loading, "Redirecting..." without a lead, else the dashboard |
| DashboardPage.LoadedView | src/pages/Dashboard.tsx:20-90 | no address leaves the spinner, a found row shows its dashboard, and anything else shows "Redirecting..." |
| DashboardPage.CaseDoesNotMatter | src/pages/Dashboard.tsx:38 | addresses equal ignoring case look up the same row with the same result |
| DashboardPage.DuplicateRedirectFindsRegisteredAddress | src/pages/Dashboard.tsx:18-38 | for every sign-up submit that ends in the duplicate redirect, the dashboard page looks up exactly the address sent to `register_lead`, or redirects home without a lookup when that address is empty |

## Left out

- Animations, scrolling, video scrubbing, the accordion, toasts, clipboard writes and navigation are outcome tags or left out. They do not decide anything the model states.
- The Zapier webhook and its no-cors retry are left out. The code ignores their result.
- The `register_lead` procedure, its email uniqueness and its referral-count increment live in the database, which is not part of this model. Its answer is an input, and a null code is modelled as the empty string.
- A null code in the older hero would be rendered as the text "null". That is not modelled.
- `leads` queries, `maybeSingle` and the role lookup are inputs. A duplicated (email, code) pair would make `maybeSingle` fail; that answer is the `QueryFailed` input.
- The ordering of `fetchLeads` by creation date is left out. The fetched list is an input, and `AdminPanel.TotalIgnoresOrder` shows the total does not depend on its order.
- Supabase authentication, `signInWithPassword` and its error messages are inputs as `AdminEvent` values, and are otherwise left out.
- `encodeURIComponent` and the router's decoding of the `email` parameter are taken to cancel out.
- `Math.random` and the clock are inputs: six alphabet indices, and the difference in milliseconds.
- JsText.Lower: lower-cases ASCII letters only; Unicode case mapping is not modelled.
- SignupFlow.ParseEmail: zod's address check is the uninterpreted parameter `isEmail`.
- SignupFlow.ParseEmail: lengths count characters where JavaScript counts UTF-16 code units, which differs only outside the Basic Multilingual Plane.
- AdminPanel.LoginCheck: the same two caveats hold (zod's check as a parameter, character counts).
- AdminPanel.CsvFields: `toLocaleDateString` is the parameter `dateText`.
- Countdown.Tick: is proved on exact real arithmetic; IEEE double rounding is not modelled.
- ReferralTiers.Tier1Progress: is stated on exact reals, not IEEE doubles.
- ReferralTiers.Tier2Progress: is stated on exact reals, not IEEE doubles.
- ReferralTiers.OverallProgress: is stated on exact reals, not IEEE doubles.
- LegacyHero.Progress: is stated on exact reals, not IEEE doubles.
- SignupFlow.Submit: the three storage writes before `register_lead` are taken to succeed. In the browser a disabled or full storage makes one of them throw into the generic-failure toast, possibly after earlier writes took effect, and the procedure is then never called; that path is not modelled.
- WelcomeEmail.WelcomeMail: the HTML around the code is two fixed placeholder parts; only the code's place in the body is modelled, not the wording.
- WelcomeEmail.Handle: the two database settings (`SUPABASE_URL`, `SUPABASE_SERVICE_ROLE_KEY`) are not separate inputs; their absence is folded into the lookup answer `NoClient`, because the check that rejects them lives inside the database client library.
- WelcomeEmail.Handle: the provider's JSON answer is not modelled, only whether it was accepted. A thrown `fetch` or `json()` counts as not accepted.
- LegacyHero.NoteText: states the leading count, not the full wording of the line.
- DashboardPage.WelcomeText: states the count and the plural ending, not every character.
- `src/pages/LegalCenter.tsx`, `src/pages/Index.tsx`, the bracket, feature, scarcity and footer sections are presentation only and not part of this model.

=== FILE: admin_panel.dfy ===
/** The admin page: the CSV export of the loaded leads, the referral total, the badge
    threshold and the "-" placeholder of the leads table, the login form's checks, and
    the admin flag and lead list as authentication events, role lookups and logout
    change them. Authentication, the role lookup and the leads query are inputs; the
    locale date rendering is a parameter. */
module AdminPanel {
  import opened JsText
  import ReferralTiers

  /** A row of the `leads` table as the page receives it. */
  datatype Lead = Lead(
    id: string,
    email: string,
    referral_code: string,
    referral_count: nat,
    referred_by: Option<string>,
    created_at: string)

  // ---------------------------------------------------------------- CSV export

  const CsvHeader: seq<string> := ["Email", "Referral Code", "Referrals", "Referred By", "Joined"]
  /** The first line of the file: the header cells joined like any other row. */
  const HeaderLine: string := Join(CsvHeader, ",")

  /** The five cells of a lead's CSV row; `dateText` stands for
      `new Date(created_at).toLocaleDateString()`. */
  function CsvFields(lead: Lead, dateText: string -> string): (fields: seq<string>)
    ensures |fields| == |CsvHeader|
    ensures fields[0] == lead.email && fields[1] == lead.referral_code
    ensures (forall k :: 0 <= k < |fields[2]| ==> IsDigit(fields[2][k])) && DecimalValue(fields[2]) == lead.referral_count
    ensures |fields[2]| >= 1 && (|fields[2]| > 1 ==> fields[2][0] != '0')
    ensures fields[3] == "" <==> !Truthy(lead.referred_by)
    ensures Truthy(lead.referred_by) ==> fields[3] == lead.referred_by.value
    ensures fields[4] == dateText(lead.created_at)
  {
    DecimalRoundTrip(lead.referral_count);
    [lead.email, lead.referral_code, Decimal(lead.referral_count), OrElse(lead.referred_by, ""), dateText(lead.created_at)]
  }

  /** The header line holds no line break, so it stays one line of the file. */
  lemma HeaderLineAvoidsBreak()
    ensures '\n' !in HeaderLine
  {
    JoinAvoids(CsvHeader, ",", '\n');
  }

  /** The header line splits back into the five header cells. */
  lemma HeaderLineCells()
    ensures Split(HeaderLine, ',') == CsvHeader
  {
    SplitJoin(CsvHeader, ',');
  }

  /** A row as one line: its cells joined by ",", with no quoting or escaping. */
  function RowLine(lead: Lead, dateText: string -> string): string {
    Join(CsvFields(lead, dateText), ",")
  }

  /** The header line followed by one line per lead, in the order the leads are held. */
  function CsvLines(leads: seq<Lead>, dateText: string -> string): (lines: seq<string>)
    ensures |lines| == |leads| + 1
    ensures lines[0] == HeaderLine
    ensures forall i :: 0 <= i < |leads| ==> lines[i + 1] == RowLine(leads[i], dateText)
  {
    [HeaderLine] + seq(|leads|, i requires 0 <= i < |leads| => RowLine(leads[i], dateText))
  }

  /** `exportCSV`'s content: the lines joined by "\n", with no trailing newline. */
  function ExportCsv(leads: seq<Lead>, dateText: string -> string): (csv: string)
    ensures |csv| >= |HeaderLine| && csv[..|HeaderLine|] == HeaderLine
    ensures |leads| == 0 ==> csv == HeaderLine
  {
    var lines := CsvLines(leads, dateText);
    assert lines[0] == HeaderLine;
    Join(lines, "\n")
  }

  /** No cell of the lead's row contains `c`. */
  predicate CellsAvoid(lead: Lead, dateText: string -> string, c: char) {
    forall k :: 0 <= k < |CsvHeader| ==> c !in CsvFields(lead, dateText)[k]
  }

  /** A row line holds a character other than the comma only if one of its cells does. */
  lemma RowLineAvoids(lead: Lead, dateText: string -> string, c: char)
    requires c != ','
    requires CellsAvoid(lead, dateText, c)
    ensures c !in RowLine(lead, dateText)
  {
    JoinAvoids(CsvFields(lead, dateText), ",", c);
  }

  /** While no cell holds a line break, splitting the export on "\n" gives back the header
      line and one line per lead, in order. */
  lemma {:induction false} CsvHasOneLinePerLead(leads: seq<Lead>, dateText: string -> string)
    requires forall i :: 0 <= i < |leads| ==> CellsAvoid(leads[i], dateText, '\n')
    ensures Split(ExportCsv(leads, dateText), '\n') == CsvLines(leads, dateText)
    ensures |Split(ExportCsv(leads, dateText), '\n')| == |leads| + 1
  {
    var lines := CsvLines(leads, dateText);
    HeaderLineAvoidsBreak();
    forall i | 0 <= i < |lines|
      ensures '\n' !in lines[i]
    {
      if i > 0 {
        assert lines[(i - 1) + 1] == RowLine(leads[i - 1], dateText);
        RowLineAvoids(leads[i - 1], dateText, '\n');
      }
    }
    SplitJoin(lines, '\n');
  }

  /** While no cell holds a line break or a comma, each lead's cells are read back from
      its line of the export. */
  lemma CsvRowRoundTrip(leads: seq<Lead>, dateText: string -> string, i: nat)
    requires i < |leads|
    requires forall j :: 0 <= j < |leads| ==> CellsAvoid(leads[j], dateText, '\n')
    requires CellsAvoid(leads[i], dateText, ',')
    ensures var lines := Split(ExportCsv(leads, dateText), '\n');
      |lines| == |leads| + 1 && Split(lines[i + 1], ',') == CsvFields(leads[i], dateText)
  {
    CsvHasOneLinePerLead(leads, dateText);
    SplitJoin(CsvFields(leads[i], dateText), ',');
  }

  // ---------------------------------------------------------------- the leads table

  /** The "Total Referrals" card: `leads.reduce((acc, lead) => acc + lead.referral_count, 0)`. */
  function TotalReferrals(leads: seq<Lead>): (total: nat)
    ensures |leads| == 0 ==> total == 0
    ensures |leads| == 1 ==> total == leads[0].referral_count
    ensures forall i :: 0 <= i < |leads| ==> leads[i].referral_count <= total
    ensures total == 0 <==> forall i :: 0 <= i < |leads| ==> leads[i].referral_count == 0
  {
    if |leads| == 0 then 0
    else
      var init := leads[..|leads| - 1];
      assert forall i :: 0 <= i < |init| ==> init[i] == leads[i];
      TotalReferrals(init) + leads[|leads| - 1].referral_count
  }

  /** The total over two lists put together is the sum of their totals. */
  lemma {:induction false} TotalAppend(a: seq<Lead>, b: seq<Lead>)
    ensures TotalReferrals(a + b) == TotalReferrals(a) + TotalReferrals(b)
  {
    if |b| > 0 {
      var b' := b[..|b| - 1];
      assert (a + b)[..|a + b| - 1] == a + b';
      TotalAppend(a, b');
    } else {
      assert a + b == a;
    }
  }

  /** `Array.prototype.reduce` with `(acc, lead) => acc + lead.referral_count`, front to
      back from the accumulator `acc`. */
  function ReduceSum(leads: seq<Lead>, acc: nat): nat {
    if |leads| == 0 then acc else ReduceSum(leads[1..], acc + leads[0].referral_count)
  }

  /** Folding from any accumulator adds the total to it. */
  lemma {:induction false} ReduceAddsTotal(leads: seq<Lead>, acc: nat)
    ensures ReduceSum(leads, acc) == acc + TotalReferrals(leads)
  {
    if |leads| > 0 {
      ReduceAddsTotal(leads[1..], acc + leads[0].referral_count);
      TotalFront(leads);
    }
  }

  /** The first lead adds its count to the total of the rest. */
  lemma TotalFront(leads: seq<Lead>)
    requires |leads| > 0
    ensures TotalReferrals(leads) == leads[0].referral_count + TotalReferrals(leads[1..])
  {
    TotalAppend([leads[0]], leads[1..]);
    assert [leads[0]] + leads[1..] == leads;
  }

  /** The card shows exactly what the `reduce` from 0 computes. */
  lemma TotalIsReduce(leads: seq<Lead>)
    ensures TotalReferrals(leads) == ReduceSum(leads, 0)
  {
    ReduceAddsTotal(leads, 0);
  }

  /** A list is its part before position `k`, the lead at `k`, and the part after it. */
  lemma SplitAt(b: seq<Lead>, k: nat)
    requires k < |b|
    ensures b == b[..k] + [b[k]] + b[k + 1..]
    ensures multiset(b[..k] + b[k + 1..]) == multiset(b) - multiset{b[k]}
  {
    assert b == b[..k] + [b[k]] + b[k + 1..];
    assert multiset(b) == multiset(b[..k]) + multiset{b[k]} + multiset(b[k + 1..]);
  }

  /** Taking one lead out of the list takes its count off the total. */
  lemma TotalWithout(b: seq<Lead>, k: nat)
    requires k < |b|
    ensures TotalReferrals(b) == TotalReferrals(b[..k] + b[k + 1..]) + b[k].referral_count
  {
    var front, x, back := b[..k], b[k], b[k + 1..];
    SplitAt(b, k);
    TotalAppend(front + [x], back);
    TotalAppend(front, [x]);
    TotalAppend(front, back);
  }

  /** The order in which the query returns the leads does not change the card: any
      rearrangement of the same leads has the same total. */
  lemma {:induction false} TotalIgnoresOrder(a: seq<Lead>, b: seq<Lead>)
    requires multiset(a) == multiset(b)
    ensures TotalReferrals(a) == TotalReferrals(b)
  {
    if |a| > 0 {
      var n := |a| - 1;
      SplitAt(a, n);
      assert a[n] in multiset(b);
      var k :| 0 <= k < |b| && b[k] == a[n];
      SplitAt(b, k);
      TotalWithout(a, n);
      TotalWithout(b, k);
      TotalIgnoresOrder(a[..n] + a[n + 1..], b[..k] + b[k + 1..]);
    } else {
      assert |multiset(b)| == 0;
    }
  }

  /** A lead's count is shown in the highlighted badge from this many referrals on. */
  const BadgeThreshold: nat := 5

  predicate BadgeHighlighted(count: nat) {
    count >= BadgeThreshold
  }

  /** The badge is highlighted exactly when the first reward tier is unlocked. */
  lemma BadgeMatchesFirstTier(count: nat)
    ensures BadgeHighlighted(count) <==> ReferralTiers.Tier1Unlocked(count)
  {
  }

  /** The table's "Referred By" cell shows "-" where the CSV has an empty cell. */
  function ReferredByCell(lead: Lead): (cell: string)
    ensures cell != ""
    ensures Truthy(lead.referred_by) ==> cell == lead.referred_by.value
  {
    OrElse(lead.referred_by, "-")
  }

  /** The table and the CSV agree on every referrer, and differ only in the placeholder
      for a missing one. */
  lemma ReferrerCellsAgree(lead: Lead, dateText: string -> string)
    ensures CsvFields(lead, dateText)[3] == "" <==> ReferredByCell(lead) == "-" && !Truthy(lead.referred_by)
    ensures Truthy(lead.referred_by) ==> CsvFields(lead, dateText)[3] == ReferredByCell(lead)
  {
  }

  /** The download's file name: "leads-" and the date part of an ISO timestamp. */
  function ExportFileName(isoNow: string): (name: string)
    ensures |name| >= 10 && name[..6] == "leads-" && name[|name| - 4..] == ".csv"
  {
    "leads-" + Split(isoNow, 'T')[0] + ".csv"
  }

  /** For a timestamp of the form date "T" time, the name carries the date. */
  lemma FileNameCarriesDate(date: string, time: string)
    requires 'T' !in date
    ensures ExportFileName(date + "T" + time) == "leads-" + date + ".csv"
  {
    SplitPrefix(date, "T" + time, 'T');
    assert date + "T" + time == date + ("T" + time);
  }

  // ---------------------------------------------------------------- login form

  const MinPasswordLength: nat := 6

  /** `loginSchema`: the message of the first failing field, email before password, or
      `None` when sign-in may be attempted. The address check is zod's, a parameter. */
  function LoginCheck(email: string, password: string, isEmail: string -> bool): (error: Option<string>)
    ensures error.None? <==> isEmail(email) && |password| >= MinPasswordLength
    ensures !isEmail(email) ==> error == Some("Please enter a valid email")
    ensures isEmail(email) && |password| < MinPasswordLength ==> error == Some("Password must be at least 6 characters")
  {
    if !isEmail(email) then Some("Please enter a valid email")
    else if |password| < MinPasswordLength then Some("Password must be at least 6 characters")
    else None
  }

  // ---------------------------------------------------------------- admin state

  datatype AdminState = AdminState(user: Option<string>, isAdmin: bool, leads: seq<Lead>)

  const InitialAdmin: AdminState := AdminState(None, false, [])

  /** What reaches the page: an auth state change or the initial session (each with the
      signed-in user's id, if any), the answer of the admin-role lookup, the answer of the
      leads query that a found row starts (`None` when it returned no data), or the
      logout button. The two lookups are asynchronous, so their answers may arrive after
      any later event, a sign-out included. */
  datatype AdminEvent =
    | AuthChanged(session: Option<string>)
    | SessionLoaded(session: Option<string>)
    | RoleChecked(hasRow: bool)
    | LeadsFetched(fetched: Option<seq<Lead>>)
    | LoggedOut

  /** One event. A role lookup is started for a signed-in user and a leads query for a
      found row; their answers arrive as later events. A leads answer is stored whenever
      it carries data, whoever is signed in by then. */
  function Step(s: AdminState, e: AdminEvent): (t: AdminState)
    ensures e.AuthChanged? && e.session.None? ==> t == AdminState(None, false, [])
    ensures e.AuthChanged? && e.session.Some? ==> t == s.(user := e.session)
    ensures e.SessionLoaded? ==> t == s.(user := e.session)
    ensures e.RoleChecked? ==> t == s.(isAdmin := e.hasRow)
    ensures e.LeadsFetched? ==> t.user == s.user && t.isAdmin == s.isAdmin
    ensures e.LeadsFetched? ==> t.leads == (if e.fetched.Some? then e.fetched.value else s.leads)
    ensures e.LoggedOut? ==> t == s.(isAdmin := false, leads := [])
  {
    match e
    case AuthChanged(session) =>
      if session.Some? then s.(user := session) else AdminState(None, false, [])
    case SessionLoaded(session) => s.(user := session)
    case RoleChecked(hasRow) => s.(isAdmin := hasRow)
    case LeadsFetched(fetched) => if fetched.Some? then s.(leads := fetched.value) else s
    case LoggedOut => s.(isAdmin := false, leads := [])
  }

  /** The user id whose role is looked up after an event, if any. */
  function RoleLookupFor(e: AdminEvent): (who: Option<string>)
    ensures who.Some? <==> (e.AuthChanged? || e.SessionLoaded?) && e.session.Some?
    ensures who.Some? ==> who == e.session
  {
    match e
    case AuthChanged(session) => session
    case SessionLoaded(session) => session
    case _ => None
  }

  function Run(s: AdminState, events: seq<AdminEvent>): AdminState {
    if |events| == 0 then s else Step(Run(s, events[..|events| - 1]), events[|events| - 1])
  }

  /** The most recent event that decided the admin flag: a role answer decides it either
      way, a sign-out or logout decides it false; other events, a leads answer included,
      leave it open. */
  function LastDecision(events: seq<AdminEvent>): Option<bool> {
    if |events| == 0 then None
    else
      match events[|events| - 1]
      case RoleChecked(hasRow) => Some(hasRow)
      case AuthChanged(session) => if session.None? then Some(false) else LastDecision(events[..|events| - 1])
      case LoggedOut => Some(false)
      case SessionLoaded(_) => LastDecision(events[..|events| - 1])
      case LeadsFetched(_) => LastDecision(events[..|events| - 1])
  }

  /** From the page's initial state, the admin flag is on exactly when the latest deciding
      event was a role lookup that found the admin row. */
  lemma {:induction false} AdminIffLatestRoleRow(events: seq<AdminEvent>)
    ensures Run(InitialAdmin, events).isAdmin <==> LastDecision(events) == Some(true)
  {
    if |events| > 0 {
      AdminIffLatestRoleRow(events[..|events| - 1]);
    }
  }

  /** Every lead the page holds came from a leads answer: from the initial state, the
      list is empty or is exactly the data of one of the leads answers received. */
  lemma {:induction false} LeadsComeFromFetch(events: seq<AdminEvent>)
    ensures var leads := Run(InitialAdmin, events).leads;
      leads == [] || exists i :: 0 <= i < |events| && events[i] == LeadsFetched(Some(leads))
  {
    if |events| > 0 {
      var init := events[..|events| - 1];
      LeadsComeFromFetch(init);
      var leads := Run(InitialAdmin, events).leads;
      if leads != [] && leads != Run(InitialAdmin, init).leads {
        assert events[|events| - 1] == LeadsFetched(Some(leads));
      } else if leads != [] {
        var i :| 0 <= i < |init| && init[i] == LeadsFetched(Some(leads));
        assert events[i] == init[i];
      }
    }
  }

  /** What the page renders. */
  datatype AdminView = LoginScreen | AccessDenied | LeadsPanel(leads: seq<Lead>, total: nat)

  function ViewOf(s: AdminState): (v: AdminView)
    ensures v.LoginScreen? <==> s.user.None?
    ensures v.AccessDenied? <==> s.user.Some? && !s.isAdmin
    ensures v.LeadsPanel? <==> s.user.Some? && s.isAdmin
    ensures v.LeadsPanel? ==> v.leads == s.leads
    // The "Total Referrals" card: the page's `reduce` over the leads it holds.
    ensures v.LeadsPanel? ==> v.total == ReduceSum(s.leads, 0)
  {
    if s.user.None? then LoginScreen
    else if !s.isAdmin then AccessDenied
    else
      TotalIsReduce(s.leads);
      LeadsPanel(s.leads, TotalReferrals(s.leads))
  }

  /** After logout, the page shows no leads, and once the sign-out event arrives it is the
      login screen with nothing loaded. */
  lemma LogoutHidesLeads(s: AdminState)
    ensures !ViewOf(Step(s, LoggedOut)).LeadsPanel?
    ensures Step(Step(s, LoggedOut), AuthChanged(None)) == InitialAdmin
    ensures ViewOf(Step(Step(s, LoggedOut), AuthChanged(None))) == LoginScreen
  {
  }

  /** A leads answer that arrives after logout and sign-out does refill the list, but the
      page stays on the login screen and shows none of it. */
  lemma LateFetchStaysHidden(s: AdminState, fetched: seq<Lead>)
    ensures var t := Run(s, [LoggedOut, AuthChanged(None), LeadsFetched(Some(fetched))]);
      t.leads == fetched && ViewOf(t) == LoginScreen
  {
    var events := [LoggedOut, AuthChanged(None), LeadsFetched(Some(fetched))];
    assert events[..2][..1] == [LoggedOut];
    assert events[..2] == [LoggedOut, AuthChanged(None)];
    assert [LoggedOut][..0] == [];
  }
}

=== FILE: countdown.dfy ===
/** The launch countdown. Each second the component takes the difference, in
    milliseconds, between the target date and now (the clock is an input here) and,
    when it is positive, splits it into days, hours, minutes and seconds with
    floating-point division, `%` and `Math.floor`; otherwise the previous value stays.
    The arithmetic is modelled on exact reals. */
module Countdown {

  datatype TimeLeft = TimeLeft(days: nat, hours: nat, minutes: nat, seconds: nat)

  /** The value before the first tick. */
  const Initial: TimeLeft := TimeLeft(0, 0, 0, 0)

  const MsPerSecond: nat := 1000
  const MsPerMinute: nat := 60 * MsPerSecond
  const MsPerHour: nat := 60 * MsPerMinute
  const MsPerDay: nat := 24 * MsPerHour

  /** `Math.floor` of a non-negative number. */
  function FloorNat(x: real): (n: nat)
    requires x >= 0.0
    ensures n as real <= x < n as real + 1.0
  {
    x.Floor
  }

  /** JavaScript `%` on a non-negative dividend and a positive divisor: the dividend
      minus the divisor times the truncated quotient. */
  function JsRem(x: real, m: real): (r: real)
    requires x >= 0.0 && m > 0.0
    ensures 0.0 <= r < m
  {
    RemBounds(x, m);
    x - m * (x / m).Floor as real
  }

  lemma RemBounds(x: real, m: real)
    requires x >= 0.0 && m > 0.0
    ensures 0.0 <= x - m * (x / m).Floor as real < m
  {
    var f := (x / m).Floor as real;
    assert f <= x / m < f + 1.0;
    RealMulLe(m, f, x / m);
    RealMulLt(m, x / m, f + 1.0);
    assert m * (x / m) == x;
    assert m * (f + 1.0) == m * f + m;
    assert m * f <= x < m * f + m;
    assert 0.0 <= x - m * f < m;
  }

  lemma RealMulLe(m: real, a: real, b: real)
    requires m > 0.0 && a <= b
    ensures m * a <= m * b
  {
    assert m * b - m * a == m * (b - a);
  }

  lemma RealMulLt(m: real, a: real, b: real)
    requires m > 0.0 && a < b
    ensures m * a < m * b
  {
    assert m * b - m * a == m * (b - a);
  }

  /** One tick's split of a positive difference. */
  function Split(difference: nat): TimeLeft
    requires difference > 0
  {
    var d := difference as real;
    TimeLeft(
      FloorNat(d / (1000.0 * 60.0 * 60.0 * 24.0)),
      FloorNat(JsRem(d / (1000.0 * 60.0 * 60.0), 24.0)),
      FloorNat(JsRem(d / 1000.0 / 60.0, 60.0)),
      FloorNat(JsRem(d / 1000.0, 60.0)))
  }

  /** `calculateTimeLeft`: a positive difference replaces the value, any other keeps it. */
  function Tick(current: TimeLeft, difference: int): (next: TimeLeft)
    ensures difference <= 0 ==> next == current
    ensures difference > 0 ==>
      && next.hours < 24 && next.minutes < 60 && next.seconds < 60
      && TotalMs(next) <= difference < TotalMs(next) + MsPerSecond
  {
    if difference > 0 then SplitIsExact(difference); Split(difference) else current
  }

  /** The milliseconds a value stands for. */
  function TotalMs(t: TimeLeft): nat {
    t.days * MsPerDay + t.hours * MsPerHour + t.minutes * MsPerMinute + t.seconds * MsPerSecond
  }

  // Integer division facts.

  lemma MulAtLeast(n: nat, k: nat)
    requires k >= 1
    ensures n * k >= n
  {
    assert n * k == n * (k - 1) + n;
  }

  lemma DivUnique(a: nat, n: nat, q: nat, r: nat)
    requires n > 0 && r < n && a == n * q + r
    ensures a / n == q && a % n == r
  {
    var q', r' := a / n, a % n;
    assert a == n * q' + r';
    if q' > q {
      assert n * q' == n * q + n * (q' - q);
      MulAtLeast(n, q' - q);
      assert false;
    } else if q' < q {
      assert n * q == n * q' + n * (q - q');
      MulAtLeast(n, q - q');
      assert false;
    }
  }

  lemma DivDiv(a: nat, b: nat, c: nat)
    requires b > 0 && c > 0
    ensures (a / b) / c == a / (b * c)
  {
    var q := a / b;
    var r := a % b;
    var q2 := q / c;
    var r2 := q % c;
    assert a == b * q + r;
    assert q == c * q2 + r2;
    Regroup(a, b, c, q, r, q2, r2);
    MulAtMost(b, r2, c - 1);
    assert b * (c - 1) == b * c - b;
    DivUnique(a, b * c, q2, b * r2 + r);
  }

  lemma Regroup(a: nat, b: nat, c: nat, q: nat, r: nat, q2: nat, r2: nat)
    requires a == b * q + r && q == c * q2 + r2
    ensures a == (b * c) * q2 + (b * r2 + r)
  {
    assert b * q == b * (c * q2) + b * r2;
    assert b * (c * q2) == (b * c) * q2;
  }

  lemma MulAtMost(b: nat, x: nat, y: nat)
    requires x <= y
    ensures b * x <= b * y
  {
    assert b * y == b * x + b * (y - x);
  }

  // Floors of real quotients of naturals.

  lemma FloorUnique(x: real, k: int)
    requires k as real <= x < k as real + 1.0
    ensures x.Floor == k
  {
  }

  lemma QuotientSplit(d: nat, u: nat)
    requires u > 0
    ensures d as real / u as real == (d / u) as real + (d % u) as real / u as real
    ensures 0.0 <= (d % u) as real / u as real < 1.0
  {
    var q := d / u;
    var r := d % u;
    assert d == u * q + r;
    assert d as real == u as real * q as real + r as real;
  }

  lemma FloorOfQuotient(d: nat, u: nat)
    requires u > 0
    ensures (d as real / u as real).Floor == d / u
  {
    QuotientSplit(d, u);
    FloorUnique(d as real / u as real, d / u);
  }

  /** `Math.floor((d / u) % m)` is the integer `(d div u) mod m` for naturals. */
  lemma FloorOfRem(d: nat, u: nat, m: nat)
    requires u > 0 && m > 0
    ensures JsRem(d as real / u as real, m as real).Floor == (d / u) % m
  {
    var x := d as real / u as real;
    var q := d / u;
    assert x / m as real == d as real / (u * m) as real;
    FloorOfQuotient(d, u * m);
    DivDiv(d, u, m);
    assert (x / m as real).Floor == q / m;
    QuotientSplit(d, u);
    assert q == m * (q / m) + q % m;
    assert q as real == m as real * (q / m) as real + (q % m) as real;
    assert JsRem(x, m as real) == (q % m) as real + (d % u) as real / u as real;
    FloorUnique(JsRem(x, m as real), q % m);
  }

  /** Each unit of the split in integer terms. */
  lemma SplitDays(difference: nat)
    requires difference > 0
    ensures Split(difference).days == difference / MsPerDay
  {
    FloorOfQuotient(difference, MsPerDay);
    assert difference as real / (1000.0 * 60.0 * 60.0 * 24.0) == difference as real / MsPerDay as real;
  }

  lemma SplitHours(difference: nat)
    requires difference > 0
    ensures Split(difference).hours == (difference / MsPerHour) % 24
  {
    FloorOfRem(difference, MsPerHour, 24);
    assert difference as real / (1000.0 * 60.0 * 60.0) == difference as real / MsPerHour as real;
  }

  lemma SplitMinutes(difference: nat)
    requires difference > 0
    ensures Split(difference).minutes == (difference / MsPerMinute) % 60
  {
    FloorOfRem(difference, MsPerMinute, 60);
    assert difference as real / 1000.0 / 60.0 == difference as real / MsPerMinute as real;
  }

  lemma SplitSeconds(difference: nat)
    requires difference > 0
    ensures Split(difference).seconds == (difference / MsPerSecond) % 60
  {
    FloorOfRem(difference, MsPerSecond, 60);
  }

  /** The split in integer terms: whole days, and the remainders below them. */
  lemma SplitIsIntegerDivision(difference: nat)
    requires difference > 0
    ensures Split(difference) == IntegerSplit(difference)
  {
    SplitDays(difference);
    SplitHours(difference);
    SplitMinutes(difference);
    SplitSeconds(difference);
  }

  /** The units of the integer split recombine into whole seconds: from the seconds
      `s`, the minutes `m := s / 60` and the hours `h := m / 60`. */
  lemma Recombine(s: nat)
    ensures var m := s / 60; var h := m / 60;
      1000 * (60 * (60 * (24 * (h / 24) + h % 24) + m % 60) + s % 60) == 1000 * s
  {
    var m := s / 60;
    var h := m / 60;
    assert h == 24 * (h / 24) + h % 24;
    assert m == 60 * h + m % 60;
    assert s == 60 * m + s % 60;
  }

  /** The divisions by the larger units are repeated divisions of the seconds. */
  lemma UnitsFromSeconds(difference: nat)
    ensures difference / MsPerMinute == (difference / 1000) / 60
    ensures difference / MsPerHour == ((difference / 1000) / 60) / 60
    ensures difference / MsPerDay == (((difference / 1000) / 60) / 60) / 24
  {
    DivDiv(difference, 1000, 60);
    DivDiv(difference, 60000, 60);
    DivDiv(difference, 3600000, 24);
  }

  /** The integer split: whole days, and the remainders below them. */
  function IntegerSplit(difference: nat): TimeLeft {
    TimeLeft(
      difference / MsPerDay,
      (difference / MsPerHour) % 24,
      (difference / MsPerMinute) % 60,
      (difference / MsPerSecond) % 60)
  }

  /** The integer split loses less than a second and keeps every unit below its carry. */
  lemma IntegerSplitIsExact(difference: nat)
    ensures TotalMs(IntegerSplit(difference)) <= difference < TotalMs(IntegerSplit(difference)) + MsPerSecond
  {
    UnitsFromSeconds(difference);
    var s := difference / 1000;
    Recombine(s);
    assert TotalMs(IntegerSplit(difference)) == 1000 * s;
    assert difference == 1000 * s + difference % 1000;
  }

  /** The split loses less than a second and keeps every unit below its carry. */
  lemma SplitIsExact(difference: nat)
    requires difference > 0
    ensures Split(difference).hours < 24
    ensures Split(difference).minutes < 60
    ensures Split(difference).seconds < 60
    ensures TotalMs(Split(difference)) <= difference < TotalMs(Split(difference)) + MsPerSecond
  {
    SplitIsIntegerDivision(difference);
    IntegerSplitIsExact(difference);
  }
}

=== FILE: dashboard_page.dfy ===
/** The `/dashboard?email=` page: one lookup of the lead by its lower-cased address, a
    redirect home when there is no address or no lead, and the referral dashboard when
    the row is found. The query's answer is an input; the redirect is an outcome tag. */
module DashboardPage {
  import opened JsText
  import opened Leads
  import SignupFlow

  /** The answer of the `leads` query: an error, no row, the row, or a thrown exception. */
  datatype LookupAnswer = QueryError | NoRow | Row(lead: LeadData) | Threw

  datatype PageState = PageState(isLoading: bool, leadData: Option<LeadData>)

  const InitialPage: PageState := PageState(true, None)

  /** The toast the effect shows. */
  datatype Notice = NoEmailProvided | EmailNotFound | WelcomeBack(text: string) | SomethingWrong

  datatype LoadResult = LoadResult(state: PageState, lookupKey: Option<string>, redirectHome: bool, notice: Notice)

  /** The address the table is queried with. */
  function LookupKey(param: string): (key: string)
    ensures EqualsIgnoringCase(key, param)
    ensures Lower(key) == key
  {
    LowerIdempotent(param);
    Lower(param)
  }

  /** The effect, for the `email` search parameter and the query's answer. */
  function Load(param: Option<string>, answer: LookupAnswer): (r: LoadResult)
    // No address: a redirect, no query, and the spinner is never cleared.
    ensures !Truthy(param) ==> r == LoadResult(InitialPage, None, true, NoEmailProvided)
    ensures Truthy(param) ==> r.lookupKey == Some(LookupKey(param.value)) && !r.state.isLoading
    ensures r.state.leadData.Some? <==> Truthy(param) && answer.Row?
    ensures r.state.leadData.Some? ==> r.state.leadData.value == answer.lead
    ensures r.redirectHome <==> r.state.leadData.None?
    ensures Truthy(param) && (answer == QueryError || answer == NoRow) ==> r.notice == EmailNotFound
    ensures Truthy(param) && answer == Threw ==> r.notice == SomethingWrong
    ensures Truthy(param) && answer.Row? ==> r.notice == WelcomeBack(WelcomeText(answer.lead.referral_count))
  {
    if !Truthy(param) then LoadResult(InitialPage, None, true, NoEmailProvided)
    else
      var key := Some(LookupKey(param.value));
      var settled := InitialPage.(isLoading := false);
      match answer
      case QueryError => LoadResult(settled, key, true, EmailNotFound)
      case NoRow => LoadResult(settled, key, true, EmailNotFound)
      case Threw => LoadResult(settled, key, true, SomethingWrong)
      case Row(lead) => LoadResult(settled.(leadData := Some(lead)), key, false, WelcomeBack(WelcomeText(lead.referral_count)))
  }

  const WelcomePrefix: string := "You have "

  /** "You have N referral(s).": the count in decimal, and the plural "s" unless it is 1. */
  function WelcomeText(count: nat): (text: string)
    ensures |text| > |WelcomePrefix| + |Decimal(count)| + 1
    ensures text[..|WelcomePrefix|] == WelcomePrefix
    ensures text[|WelcomePrefix|..|WelcomePrefix| + |Decimal(count)|] == Decimal(count)
    ensures text[|text| - 1] == '.'
    ensures text[|text| - 2] == 's' <==> count != 1
  {
    var digits := Decimal(count);
    var noun := if count != 1 then " referrals" else " referral";
    var head := WelcomePrefix + digits;
    var text := head + (noun + ".");
    assert text[..|head|] == head;
    assert head[|WelcomePrefix|..] == digits;
    assert text[|WelcomePrefix|..|head|] == head[|WelcomePrefix|..];
    text
  }

  /** What the page renders. */
  datatype View = Spinner | Redirecting | LeadDashboard(lead: LeadData)

  function ViewOf(s: PageState): (v: View)
    ensures v == Spinner <==> s.isLoading
    ensures v == Redirecting <==> !s.isLoading && s.leadData.None?
    ensures v.LeadDashboard? ==> s.leadData == Some(v.lead)
  {
    if s.isLoading then Spinner
    else if s.leadData.None? then Redirecting
    else LeadDashboard(s.leadData.value)
  }

  /** Every answer leaves the page on the spinner without an address, on the dashboard
      for a found row, and on "Redirecting..." otherwise. */
  lemma LoadedView(param: Option<string>, answer: LookupAnswer)
    ensures !Truthy(param) ==> ViewOf(Load(param, answer).state) == Spinner
    ensures Truthy(param) && answer.Row? ==> ViewOf(Load(param, answer).state) == LeadDashboard(answer.lead)
    ensures Truthy(param) && !answer.Row? ==> ViewOf(Load(param, answer).state) == Redirecting
  {
  }

  /** Addresses that differ only in letter case look up the same row. */
  lemma CaseDoesNotMatter(a: string, b: string, answer: LookupAnswer)
    requires a != "" && b != "" && EqualsIgnoringCase(a, b)
    ensures Load(Some(a), answer) == Load(Some(b), answer)
  {
  }

  /** A duplicate address from the sign-up panel arrives here already normalized, so the
      page looks up exactly the address the panel tried to register. */
  lemma DuplicateRedirectFindsRegisteredAddress(s: SignupFlow.PanelState, storage: SignupFlow.Storage,
                                                isEmail: string -> bool, inbound: Option<string>,
                                                origin: string, generated: string, answer: RegisterAnswer,
                                                lookup: LookupAnswer)
    requires SignupFlow.Submit(s, storage, isEmail, inbound, origin, generated, answer).outcome.AlreadyRegistered?
    ensures var r := SignupFlow.Submit(s, storage, isEmail, inbound, origin, generated, answer);
      var page := Load(Some(r.outcome.dashboardEmail), lookup);
      && (r.outcome.dashboardEmail != "" ==> page.lookupKey == Some(r.call.value.user_email))
      && (r.outcome.dashboardEmail == "" ==> page.lookupKey.None? && page.redirectHome)
  {
    LowerIdempotent(Trim(s.email));
  }
}

=== FILE: email_regex.dfy ===
/** The welcome-email function's address check, `/^[^\s@]+@[^\s@]+\.[^\s@]+$/`:
    its meaning as a regular expression, a plain-words characterisation, and a
    single-pass decision procedure, all shown to agree. */
module EmailRegex {
  import opened JsText

  /** `[^\s@]`: any character but whitespace and '@'. */
  predicate IsAtomChar(c: char) {
    !IsSpace(c) && c != '@'
  }

  /** `[^\s@]+` matching all of `t`. */
  predicate IsAtom(t: string) {
    |t| > 0 && forall k :: 0 <= k < |t| ==> IsAtomChar(t[k])
  }

  /** The whole string is `atom '@' atom '.' atom`, for some choice of the '@' at `i`
      and the '.' at `j` (the regex may backtrack to any such split). */
  predicate RegexMatches(s: string) {
    exists i, j :: 0 < i && i + 1 < j < |s| - 1 && s[i] == '@' && s[j] == '.'
      && IsAtom(s[..i]) && IsAtom(s[i + 1..j]) && IsAtom(s[j + 1..])
  }

  predicate NoSpace(s: string) {
    forall k :: 0 <= k < |s| ==> !IsSpace(s[k])
  }

  /** `s` has an '@' at `i` and nowhere else. */
  predicate OnlyAtAt(s: string, i: int) {
    0 <= i < |s| && s[i] == '@' && forall k :: 0 <= k < |s| && k != i ==> s[k] != '@'
  }

  /** The domain after the '@' at `i` has a '.' that is neither its first nor its last
      character. */
  predicate DomainHasInnerDot(s: string, i: int) {
    exists j :: 0 <= i + 1 < j < |s| - 1 && s[j] == '.'
  }

  /** In plain words: no whitespace, exactly one '@', something before it, and a domain
      with a dot strictly inside it. */
  predicate EmailShape(s: string) {
    NoSpace(s) && exists i :: 0 < i < |s| && OnlyAtAt(s, i) && DomainHasInnerDot(s, i)
  }

  lemma MatchHasShape(s: string, i: int, j: int)
    requires 0 < i && i + 1 < j < |s| - 1 && s[i] == '@' && s[j] == '.'
    requires IsAtom(s[..i]) && IsAtom(s[i + 1..j]) && IsAtom(s[j + 1..])
    ensures NoSpace(s) && OnlyAtAt(s, i) && DomainHasInnerDot(s, i)
  {
    forall k | 0 <= k < |s| && k != i && k != j
      ensures IsAtomChar(s[k])
    {
      if k < i {
        assert s[k] == s[..i][k];
      } else if k < j {
        assert s[k] == s[i + 1..j][k - i - 1];
      } else {
        assert s[k] == s[j + 1..][k - j - 1];
      }
    }
  }

  lemma ShapeHasMatch(s: string, i: int, j: int)
    requires NoSpace(s) && OnlyAtAt(s, i) && i > 0
    requires i + 1 < j < |s| - 1 && s[j] == '.'
    ensures IsAtom(s[..i]) && IsAtom(s[i + 1..j]) && IsAtom(s[j + 1..])
  {
  }

  /** The regular expression accepts exactly the strings of the plain-words shape. */
  lemma {:induction false} RegexIffShape(s: string)
    ensures RegexMatches(s) <==> EmailShape(s)
  {
    if RegexMatches(s) {
      var i, j :| 0 < i && i + 1 < j < |s| - 1 && s[i] == '@' && s[j] == '.'
        && IsAtom(s[..i]) && IsAtom(s[i + 1..j]) && IsAtom(s[j + 1..]);
      MatchHasShape(s, i, j);
    }
    if EmailShape(s) {
      var i :| 0 < i < |s| && OnlyAtAt(s, i) && DomainHasInnerDot(s, i);
      var j :| i + 1 < j < |s| - 1 && s[j] == '.';
      ShapeHasMatch(s, i, j);
    }
  }

  /** `EMAIL_REGEX.test(s)` decided in one left-to-right pass for whitespace and '@',
      then a scan of the domain for an inner dot. */
  method Test(s: string) returns (ok: bool)
    ensures ok <==> RegexMatches(s)
  {
    var at := -1;
    var manyAts := false;
    var space := false;
    for k := 0 to |s|
      invariant -1 <= at < k
      invariant at == -1 ==> forall m :: 0 <= m < k ==> s[m] != '@'
      invariant at != -1 ==> s[at] == '@'
      invariant !manyAts && at != -1 ==> forall m :: 0 <= m < k && m != at ==> s[m] != '@'
      invariant manyAts ==> at != -1 && exists m :: 0 <= m < k && m != at && s[m] == '@'
      invariant space <==> exists m :: 0 <= m < k && IsSpace(s[m])
    {
      if IsSpace(s[k]) {
        space := true;
      }
      if s[k] == '@' {
        if at == -1 {
          at := k;
        } else {
          manyAts := true;
        }
      }
    }
    RegexIffShape(s);
    if space || at <= 0 || manyAts {
      ok := false;
      return;
    }
    assert OnlyAtAt(s, at);
    ok := false;
    var j := at + 2;
    while j < |s| - 1
      invariant at + 2 <= j
      invariant ok <==> exists m :: at + 1 < m < j && m < |s| - 1 && s[m] == '.'
      decreases |s| - j
    {
      if s[j] == '.' {
        ok := true;
      }
      j := j + 1;
    }
    assert ok <==> DomainHasInnerDot(s, at);
  }
}

=== FILE: js_text.dfy ===
/** The slice of JavaScript string semantics the site's logic relies on:
    optional values and string truthiness, the `\s` whitespace class (shared by
    regular expressions and `String.prototype.trim`), lower-casing,
    `Array.prototype.join`, splitting on one character and `Number.prototype.toString`
    for non-negative integers. */
module JsText {

  /** A value that may be `null` (or `undefined`) on the JavaScript side. */
  datatype Option<+T> = None | Some(value: T)

  /** `if (s)` for a string that may be null: null and "" are falsy. */
  predicate Truthy(s: Option<string>) {
    s.Some? && s.value != ""
  }

  /** `x || fallback` for a string that may be null. */
  function OrElse(s: Option<string>, fallback: string): (r: string)
    ensures Truthy(s) ==> r == s.value
    ensures !Truthy(s) ==> r == fallback
  {
    if Truthy(s) then s.value else fallback
  }

  /** The characters matched by `\s` in an ECMAScript regular expression, which are
      also exactly the ones `trim` removes: WhiteSpace and LineTerminator. */
  predicate IsSpace(c: char) {
    || c == '\t' || c == '\n' || c == '\U{000B}' || c == '\U{000C}' || c == '\r' || c == ' '
    || c == '\U{00A0}' || c == '\U{1680}'
    || ('\U{2000}' <= c <= '\U{200A}')
    || c == '\U{2028}' || c == '\U{2029}' || c == '\U{202F}' || c == '\U{205F}'
    || c == '\U{3000}' || c == '\U{FEFF}'
  }

  predicate IsUpperAscii(c: char) {
    'A' <= c <= 'Z'
  }

  /** `toLowerCase` on one character, restricted to the ASCII letters. */
  function LowerChar(c: char): (r: char)
    ensures IsUpperAscii(c) ==> r as int == c as int + 32
    ensures !IsUpperAscii(c) ==> r == c
    ensures !IsUpperAscii(r)
  {
    if IsUpperAscii(c) then (c as int + 32) as char else c
  }

  /** `toLowerCase` on a string: character by character, length-preserving. */
  function Lower(s: string): (r: string)
    ensures |r| == |s|
    ensures forall i :: 0 <= i < |s| ==> r[i] == LowerChar(s[i])
  {
    seq(|s|, i requires 0 <= i < |s| => LowerChar(s[i]))
  }

  /** Lower-casing twice is lower-casing once. */
  lemma LowerIdempotent(s: string)
    ensures Lower(Lower(s)) == Lower(s)
  {
    assert forall i :: 0 <= i < |s| ==> Lower(Lower(s))[i] == Lower(s)[i];
  }

  /** `a.toLowerCase() === b.toLowerCase()` */
  predicate EqualsIgnoringCase(a: string, b: string) {
    Lower(a) == Lower(b)
  }

  /** The number of whitespace characters `s` starts with. */
  function LeadingSpaces(s: string): (k: nat)
    ensures k <= |s|
    ensures forall i :: 0 <= i < k ==> IsSpace(s[i])
    ensures k < |s| ==> !IsSpace(s[k])
  {
    if |s| > 0 && IsSpace(s[0]) then 1 + LeadingSpaces(s[1..]) else 0
  }

  /** Removes trailing whitespace. */
  function TrimEnd(s: string): (r: string)
    ensures |r| <= |s| && r == s[..|r|]
    ensures r == [] || !IsSpace(r[|r| - 1])
    ensures forall i :: |r| <= i < |s| ==> IsSpace(s[i])
  {
    if |s| > 0 && IsSpace(s[|s| - 1]) then TrimEnd(s[..|s| - 1]) else s
  }

  /** `String.prototype.trim`: the slice of `s` left after cutting away the leading
      whitespace and then the trailing whitespace. */
  function Trim(s: string): (r: string)
    ensures LeadingSpaces(s) + |r| <= |s|
    ensures r == s[LeadingSpaces(s)..LeadingSpaces(s) + |r|]
    ensures forall i :: LeadingSpaces(s) + |r| <= i < |s| ==> IsSpace(s[i])
    ensures r == [] || (!IsSpace(r[0]) && !IsSpace(r[|r| - 1]))
  {
    TrimEnd(s[LeadingSpaces(s)..])
  }

  /** `parts.join(sep)`: the separator between consecutive parts, none at either end. */
  function Join(parts: seq<string>, sep: string): string {
    if |parts| == 0 then ""
    else if |parts| == 1 then parts[0]
    else parts[0] + sep + Join(parts[1..], sep)
  }

  /** `s.split(c)` for a one-character separator: always at least one piece. */
  function Split(s: string, c: char): (r: seq<string>)
    ensures |r| >= 1
  {
    if |s| == 0 then [""]
    else
      var rest := Split(s[1..], c);
      if s[0] == c then [""] + rest else [[s[0]] + rest[0]] + rest[1..]
  }

  /** A piece free of the separator glues onto the first piece of what follows. */
  lemma {:induction false} SplitPrefix(a: string, t: string, c: char)
    requires c !in a
    ensures Split(a + t, c) == [a + Split(t, c)[0]] + Split(t, c)[1..]
  {
    if |a| > 0 {
      assert (a + t)[1..] == a[1..] + t;
      assert (a + t)[0] == a[0] != c;
      SplitPrefix(a[1..], t, c);
      assert [a[0]] + (a[1..] + Split(t, c)[0]) == a + Split(t, c)[0];
    } else {
      assert a + t == t;
      assert a + Split(t, c)[0] == Split(t, c)[0];
      assert [Split(t, c)[0]] + Split(t, c)[1..] == Split(t, c);
    }
  }

  /** Splitting undoes joining when no part contains the separator. */
  lemma {:induction false} SplitJoin(parts: seq<string>, c: char)
    requires |parts| >= 1
    requires forall i :: 0 <= i < |parts| ==> c !in parts[i]
    ensures Split(Join(parts, [c]), c) == parts
  {
    if |parts| == 1 {
      SplitPrefix(parts[0], "", c);
      assert parts[0] + "" == parts[0];
    } else {
      var tail := Join(parts[1..], [c]);
      SplitJoin(parts[1..], c);
      assert Join(parts, [c]) == parts[0] + ([c] + tail);
      SplitPrefix(parts[0], [c] + tail, c);
      assert ([c] + tail)[1..] == tail;
      assert parts[0] + "" == parts[0];
      assert [parts[0]] + parts[1..] == parts;
    }
  }

  /** A joined string contains a character only if a part or the separator does. */
  lemma {:induction false} JoinAvoids(parts: seq<string>, sep: string, c: char)
    requires c !in sep
    requires forall i :: 0 <= i < |parts| ==> c !in parts[i]
    ensures c !in Join(parts, sep)
  {
    if |parts| > 1 {
      JoinAvoids(parts[1..], sep, c);
    }
  }

  function DigitChar(d: nat): (r: char)
    requires d < 10
  {
    ('0' as int + d) as char
  }

  predicate IsDigit(c: char) {
    '0' <= c <= '9'
  }

  /** `n.toString()` for a non-negative integer: decimal digits, no leading zero. */
  function Decimal(n: nat): (r: string)
    ensures |r| >= 1
    ensures forall i :: 0 <= i < |r| ==> IsDigit(r[i])
    ensures |r| > 1 ==> r[0] != '0'
  {
    if n < 10 then [DigitChar(n)] else Decimal(n / 10) + [DigitChar(n % 10)]
  }

  function DigitValue(c: char): (d: nat)
    requires IsDigit(c)
    ensures d < 10 && DigitChar(d) == c
  {
    c as int - '0' as int
  }

  /** The value of a string of decimal digits, most significant first. */
  function DecimalValue(s: string): nat
    requires forall i :: 0 <= i < |s| ==> IsDigit(s[i])
  {
    if |s| == 0 then 0
    else 10 * DecimalValue(s[..|s| - 1]) + DigitValue(s[|s| - 1])
  }

  /** Reading back a rendered count gives the count: the rendering loses nothing. */
  lemma {:induction false} DecimalRoundTrip(n: nat)
    ensures DecimalValue(Decimal(n)) == n
  {
    if n >= 10 {
      DecimalRoundTrip(n / 10);
      var s := Decimal(n);
      assert s[..|s| - 1] == Decimal(n / 10);
    }
  }

  /** Distinct counts render as distinct strings. */
  lemma DecimalInjective(m: nat, n: nat)
    requires Decimal(m) == Decimal(n)
    ensures m == n
  {
    DecimalRoundTrip(m);
    DecimalRoundTrip(n);
  }
}

=== FILE: leads.dfy ===
/** What the client side knows about a lead, the shareable link built from its
    referral code, and the answers the `register_lead` remote procedure can give.
    The procedure itself runs in the database and is not part of this model: its
    answer is an input to every flow that calls it. */
module Leads {
  import opened JsText

  /** The `LeadData` record shared by the dashboard, the hero forms and the lookup page. */
  datatype LeadData = LeadData(email: string, referral_code: string, referral_count: nat)

  /** Text between the site origin and the referral code in a shareable link. */
  const RefQuery: string := "?ref="

  /** `${origin}?ref=${code}` */
  function ReferralLink(origin: string, code: string): (link: string)
    ensures |link| == |origin| + |RefQuery| + |code|
    ensures link[..|origin|] == origin
    ensures link[|origin|..|origin| + |RefQuery|] == RefQuery
    ensures link[|origin| + |RefQuery|..] == code
  {
    origin + RefQuery + code
  }

  /** Recovers the code from a link of this site, the way a visitor's `?ref` parameter does
      when the link carries nothing else. */
  function CodeOfLink(origin: string, link: string): Option<string> {
    var n := |origin| + |RefQuery|;
    if |link| >= n && link[..|origin|] == origin && link[|origin|..n] == RefQuery
    then Some(link[n..])
    else None
  }

  /** A shared link hands back exactly the code it was built from. */
  lemma LinkRoundTrip(origin: string, code: string)
    ensures CodeOfLink(origin, ReferralLink(origin, code)) == Some(code)
  {
  }

  /** Links of one origin are equal exactly when their codes are. */
  lemma LinkInjective(origin: string, c1: string, c2: string)
    ensures ReferralLink(origin, c1) == ReferralLink(origin, c2) <==> c1 == c2
  {
    if ReferralLink(origin, c1) == ReferralLink(origin, c2) {
      LinkRoundTrip(origin, c1);
      LinkRoundTrip(origin, c2);
    }
  }

  /** The Postgres unique-violation code the callers treat as "already registered". */
  const DuplicateEmailCode: string := "23505"

  /** The answer of `register_lead`: the lead's referral code (a null code is the empty
      string), or an error carrying its code. */
  datatype RegisterAnswer = Assigned(code: string) | RegisterError(errorCode: string)

  /** The arguments a client passes to `register_lead`. */
  datatype RegisterCall = RegisterCall(user_email: string, ref_code: Option<string>)

  /** `ref_code: referralCode || null`: an empty or absent inbound code is sent as null. */
  function InboundRefCode(referralCode: Option<string>): (r: Option<string>)
    ensures r.Some? <==> Truthy(referralCode)
    ensures r.Some? ==> r == referralCode && r.value != ""
  {
    if Truthy(referralCode) then referralCode else None
  }
}

=== FILE: legacy_hero.dfy ===
/** The older single-goal hero: a form whose only check is a non-empty address holding
    an '@', a `register_lead` call with the address exactly as typed, a welcome-back
    notice for a duplicate, and a referral panel with a five-referral progress bar
    towards Priority Access. The procedure's answer is an input. */
module LegacyHero {
  import opened JsText
  import opened Leads
  import ReferralTiers
  import EmailRegex

  datatype HeroState = HeroState(email: string, isLoading: bool, leadData: Option<LeadData>)

  const InitialHero: HeroState := HeroState("", false, None)

  /** `!email || !email.includes("@")` rejects the address. */
  predicate AcceptsEmail(email: string) {
    email != "" && '@' in email
  }

  /** The check is much weaker than the welcome-mail function's pattern: everything that
      pattern accepts gets through, and so does a lone "@". */
  lemma CheckWeakerThanPattern(s: string)
    ensures EmailRegex.RegexMatches(s) ==> AcceptsEmail(s)
    ensures AcceptsEmail("@") && !EmailRegex.RegexMatches("@")
  {
    if EmailRegex.RegexMatches(s) {
      var i, j :| 0 < i && i + 1 < j < |s| - 1 && s[i] == '@' && s[j] == '.'
        && EmailRegex.IsAtom(s[..i]) && EmailRegex.IsAtom(s[i + 1..j]) && EmailRegex.IsAtom(s[j + 1..]);
      assert s[i] in s;
    }
  }

  datatype Outcome =
    | InvalidEmail   // the "Invalid email" toast
    | WelcomeBack    // "23505": the "Welcome back!" toast, the form stays
    | Failed         // any other error: the generic failure toast
    | Joined         // the referral panel

  datatype SubmitResult = SubmitResult(state: HeroState, call: Option<RegisterCall>, outcome: Outcome)

  /** `handleSubmit` for one answer of `register_lead`. */
  function Submit(s: HeroState, inbound: Option<string>, answer: RegisterAnswer): (r: SubmitResult)
    ensures r.call.None? <==> !AcceptsEmail(s.email)
    ensures r.outcome == InvalidEmail <==> !AcceptsEmail(s.email)
    ensures r.outcome == InvalidEmail ==> r.state == s
    // The address goes out exactly as typed: no trimming, no lower-casing.
    ensures r.call.Some? ==> r.call.value == RegisterCall(s.email, InboundRefCode(inbound)) && !r.state.isLoading
    ensures r.outcome == WelcomeBack <==> AcceptsEmail(s.email) && answer == RegisterError(DuplicateEmailCode)
    ensures r.outcome == Failed <==>
      AcceptsEmail(s.email) && answer.RegisterError? && answer.errorCode != DuplicateEmailCode
    ensures r.outcome != Joined ==> r.state.leadData == s.leadData
    ensures r.outcome == Joined <==> AcceptsEmail(s.email) && answer.Assigned?
    ensures r.outcome == Joined ==> r.state.leadData == Some(LeadData(s.email, answer.code, 0))
    ensures r.state.email == s.email
  {
    if !AcceptsEmail(s.email) then SubmitResult(s, None, InvalidEmail)
    else
      var call := RegisterCall(s.email, InboundRefCode(inbound));
      var done := s.(isLoading := false);
      match answer
      case RegisterError(code) =>
        if code == DuplicateEmailCode then SubmitResult(done, Some(call), WelcomeBack)
        else SubmitResult(done, Some(call), Failed)
      case Assigned(code) => SubmitResult(done.(leadData := Some(LeadData(s.email, code, 0))), Some(call), Joined)
  }

  /** A duplicate address leaves a fresh visitor on the form: nothing is known about the
      existing lead on this page. */
  lemma DuplicateKeepsForm(email: string, inbound: Option<string>)
    requires AcceptsEmail(email)
    ensures var r := Submit(InitialHero.(email := email), inbound, RegisterError(DuplicateEmailCode));
      r.outcome == WelcomeBack && r.state.leadData.None? && ViewOf(r.state) == SignUpForm
  {
  }

  /** The goal of the single progress bar. */
  const PriorityGoal: nat := 5

  /** `referralProgress`: 0 without a lead, else `Math.min((count / 5) * 100, 100)`. */
  function Progress(leadData: Option<LeadData>): (p: real)
    ensures 0.0 <= p <= 100.0
    ensures leadData.None? ==> p == 0.0
    ensures leadData.Some? ==> (p == 100.0 <==> leadData.value.referral_count >= PriorityGoal)
  {
    if leadData.None? then 0.0
    else ReferralTiers.Min((leadData.value.referral_count as real / PriorityGoal as real) * 100.0, 100.0)
  }

  /** The bar is the newer dashboard's first-tier bar under another name. */
  lemma ProgressIsFirstTier(lead: LeadData)
    ensures Progress(Some(lead)) == ReferralTiers.Tier1Progress(lead.referral_count)
  {
  }

  /** The line under the bar: unlocked, or how many referrals are still missing and
      whether "referral" takes the plural "s". */
  datatype ProgressNote = PriorityUnlocked | MoreNeeded(remaining: nat, plural: bool)

  function NoteFor(count: nat): (note: ProgressNote)
    ensures note == PriorityUnlocked <==> count >= PriorityGoal
    ensures note.MoreNeeded? ==> note.remaining > 0 && count + note.remaining == PriorityGoal
    ensures note.MoreNeeded? ==> (note.plural <==> note.remaining != 1)
  {
    if count >= PriorityGoal then PriorityUnlocked
    else MoreNeeded(PriorityGoal - count, PriorityGoal - count != 1)
  }

  /** The same threshold and remainder as the newer dashboard's first reward card. */
  lemma NoteAgreesWithFirstTier(count: nat)
    ensures NoteFor(count) == PriorityUnlocked <==> ReferralTiers.Tier1MoreToUnlock(count).None?
    ensures NoteFor(count).MoreNeeded? ==>
      NoteFor(count).remaining == ReferralTiers.Tier1MoreToUnlock(count).value
  {
  }

  /** The rendered line. */
  function NoteText(note: ProgressNote): (text: string)
    ensures note == PriorityUnlocked ==> text == "Priority Access Unlocked!"
    ensures note.MoreNeeded? ==>
      && |Decimal(note.remaining)| < |text|
      && text[..|Decimal(note.remaining)|] == Decimal(note.remaining)
      && DecimalValue(text[..|Decimal(note.remaining)|]) == note.remaining
  {
    match note
    case PriorityUnlocked => "Priority Access Unlocked!"
    case MoreNeeded(remaining, plural) =>
      DecimalRoundTrip(remaining);
      var digits := Decimal(remaining);
      var rest := " more referral" + (if plural then "s" else "") + " to unlock Priority Access";
      assert (digits + rest)[..|digits|] == digits;
      digits + rest
  }

  /** `referralLink`: empty without a lead. */
  function LinkOf(origin: string, leadData: Option<LeadData>): (link: string)
    ensures leadData.None? ==> link == ""
    ensures leadData.Some? ==> CodeOfLink(origin, link) == Some(leadData.value.referral_code)
  {
    if leadData.None? then ""
    else
      LinkRoundTrip(origin, leadData.value.referral_code);
      ReferralLink(origin, leadData.value.referral_code)
  }

  datatype View = SignUpForm | ReferralPanel(lead: LeadData)

  function ViewOf(s: HeroState): (v: View)
    ensures v == SignUpForm <==> s.leadData.None?
    ensures v.ReferralPanel? ==> v.lead == s.leadData.value
  {
    if s.leadData.None? then SignUpForm else ReferralPanel(s.leadData.value)
  }
}

=== FILE: referral_code.dfy ===
/** The client-side referral code: "REF" followed by six characters drawn from the
    36-character alphabet A-Z0-9. The random draws are an input: each draw is the index
    `Math.floor(Math.random() * 36)` produced, so it lies in [0, 36). */
module ReferralCode {

  const Alphabet: string := "ABCDEFGHIJKLMNOPQRSTUVWXYZ0123456789"
  const Prefix: string := "REF"
  const SuffixLength: nat := 6
  const CodeLength: nat := 9

  /** An upper-case ASCII letter or a decimal digit. */
  predicate IsCodeChar(c: char) {
    ('A' <= c <= 'Z') || ('0' <= c <= '9')
  }

  /** The shape every generated code has. */
  predicate IsReferralCode(s: string) {
    && |s| == CodeLength
    && s[..|Prefix|] == Prefix
    && forall i :: |Prefix| <= i < |s| ==> IsCodeChar(s[i])
  }

  /** The position of a code character in the alphabet. */
  function AlphabetIndex(c: char): (k: nat)
    requires IsCodeChar(c)
    ensures k < |Alphabet| && Alphabet[k] == c
  {
    if 'A' <= c <= 'Z' then c as int - 'A' as int else 26 + (c as int - '0' as int)
  }

  /** The alphabet holds exactly the code characters, each once. */
  lemma AlphabetIsCodeChars()
    ensures |Alphabet| == 36
    ensures forall k :: 0 <= k < |Alphabet| ==> IsCodeChar(Alphabet[k])
    ensures forall k :: 0 <= k < |Alphabet| ==> AlphabetIndex(Alphabet[k]) == k
  {
    forall k | 0 <= k < 26
      ensures Alphabet[k] == ('A' as int + k) as char
    {
    }
    forall k | 26 <= k < 36
      ensures Alphabet[k] == ('0' as int + (k - 26)) as char
    {
    }
  }

  predicate ValidDraws(draws: seq<int>) {
    |draws| == SuffixLength && forall i :: 0 <= i < |draws| ==> 0 <= draws[i] < |Alphabet|
  }

  /** `generateReferralCode`: start from the prefix and append one alphabet character
      per draw. */
  method GenerateReferralCode(draws: seq<int>) returns (code: string)
    requires ValidDraws(draws)
    ensures IsReferralCode(code)
    ensures forall i :: 0 <= i < SuffixLength ==> code[|Prefix| + i] == Alphabet[draws[i]]
  {
    AlphabetIsCodeChars();
    code := Prefix;
    for i := 0 to SuffixLength
      invariant |code| == |Prefix| + i
      invariant code[..|Prefix|] == Prefix
      invariant forall j :: 0 <= j < i ==> code[|Prefix| + j] == Alphabet[draws[j]]
      invariant forall j :: |Prefix| <= j < |code| ==> IsCodeChar(code[j])
    {
      code := code + [Alphabet[draws[i]]];
    }
  }

  /** The draws that produce a given code. */
  function DrawsOf(code: string): (draws: seq<int>)
    requires IsReferralCode(code)
    ensures ValidDraws(draws)
    ensures forall i :: 0 <= i < SuffixLength ==> Alphabet[draws[i]] == code[|Prefix| + i]
  {
    var draws := seq(SuffixLength, i requires 0 <= i < SuffixLength => AlphabetIndex(code[|Prefix| + i]) as int);
    assert forall i :: 0 <= i < SuffixLength ==> draws[i] == AlphabetIndex(code[|Prefix| + i]);
    draws
  }

  /** Two codes of the right shape with the same draws are the same code: by the
      generator's postcondition, every well-formed code is generated by exactly the
      draws `DrawsOf` returns. */
  lemma DrawsDetermineCode(c1: string, c2: string)
    requires IsReferralCode(c1) && IsReferralCode(c2)
    requires DrawsOf(c1) == DrawsOf(c2)
    ensures c1 == c2
  {
    assert forall i :: |Prefix| <= i < CodeLength ==> c1[i] == Alphabet[DrawsOf(c1)[i - |Prefix|]];
    assert forall i :: 0 <= i < |Prefix| ==> c1[i] == c1[..|Prefix|][i] == c2[..|Prefix|][i] == c2[i];
  }
}

=== FILE: referral_tiers.dfy ===
/** The two-tier reward policy of the referral dashboard: a lead unlocks VIP priority at
    five referrals and the trading eBook at ten. Percentages are exact reals. */
module ReferralTiers {
  import opened JsText
  import opened Leads

  const Tier1Goal: nat := 5
  const Tier2Goal: nat := 10

  predicate Tier1Unlocked(count: nat) {
    count >= Tier1Goal
  }

  predicate Tier2Unlocked(count: nat) {
    count >= Tier2Goal
  }

  /** The reward level a count has reached: 0 (none), 1 (VIP) or 2 (VIP and eBook). */
  function Level(count: nat): (level: nat)
    ensures level <= 2
    ensures level >= 1 <==> Tier1Unlocked(count)
    ensures level == 2 <==> Tier2Unlocked(count)
  {
    if Tier2Unlocked(count) then 2 else if Tier1Unlocked(count) then 1 else 0
  }

  /** The eBook tier cannot be unlocked without the VIP tier, and neither relocks as the
      count grows. */
  lemma UnlockOrdering(count: nat, later: nat)
    requires count <= later
    ensures Tier2Unlocked(count) ==> Tier1Unlocked(count)
    ensures Tier1Unlocked(count) ==> Tier1Unlocked(later)
    ensures Tier2Unlocked(count) ==> Tier2Unlocked(later)
    ensures Level(count) <= Level(later)
  {
  }

  function Min(a: real, b: real): real {
    if a <= b then a else b
  }

  /** `Math.min((count / 5) * 100, 100)` */
  function Tier1Progress(count: nat): (p: real)
    ensures 0.0 <= p <= 100.0
    ensures p == 100.0 <==> Tier1Unlocked(count)
    ensures !Tier1Unlocked(count) ==> p == 20.0 * count as real
  {
    Min((count as real / Tier1Goal as real) * 100.0, 100.0)
  }

  /** Zero until VIP is unlocked, then `Math.min(((count - 5) / (10 - 5)) * 100, 100)`. */
  function Tier2Progress(count: nat): (p: real)
    ensures !Tier1Unlocked(count) ==> p == 0.0
    ensures 0.0 <= p <= 100.0
    ensures p == 100.0 <==> Tier2Unlocked(count)
    ensures Tier1Unlocked(count) && !Tier2Unlocked(count) ==> p == 20.0 * (count - 5) as real
  {
    if Tier1Unlocked(count)
    then Min(((count - Tier1Goal) as real / (Tier2Goal - Tier1Goal) as real) * 100.0, 100.0)
    else 0.0
  }

  /** `Math.min((count / 10) * 100, 100)`: the width of the combined progress bar. */
  function OverallProgress(count: nat): (p: real)
    ensures 0.0 <= p <= 100.0
    ensures p == 100.0 <==> Tier2Unlocked(count)
    ensures count == Tier1Goal ==> p == 50.0
    ensures !Tier2Unlocked(count) ==> p == 10.0 * count as real
  {
    Min((count as real / Tier2Goal as real) * 100.0, 100.0)
  }

  /** More referrals never lower any of the three percentages. */
  lemma ProgressMonotonic(count: nat, later: nat)
    requires count <= later
    ensures Tier1Progress(count) <= Tier1Progress(later)
    ensures Tier2Progress(count) <= Tier2Progress(later)
    ensures OverallProgress(count) <= OverallProgress(later)
  {
  }

  /** The "N more to unlock" line of a reward card: present only while the tier is
      locked, and then the referrals still missing. */
  function MoreToUnlock(goal: nat, count: nat): (more: Option<nat>)
    ensures more.Some? <==> count < goal
    ensures more.Some? ==> more.value > 0 && count + more.value == goal
  {
    if count >= goal then None else Some(goal - count)
  }

  /** The VIP card's line. */
  function Tier1MoreToUnlock(count: nat): (more: Option<nat>)
    ensures more.Some? <==> !Tier1Unlocked(count)
    ensures more.Some? ==> 0 < more.value <= Tier1Goal && count + more.value == Tier1Goal
  {
    MoreToUnlock(Tier1Goal, count)
  }

  /** The eBook card's line. */
  function Tier2MoreToUnlock(count: nat): (more: Option<nat>)
    ensures more.Some? <==> !Tier2Unlocked(count)
    ensures more.Some? ==> 0 < more.value <= Tier2Goal && count + more.value == Tier2Goal
  {
    MoreToUnlock(Tier2Goal, count)
  }

  /** Singular only for exactly one referral. */
  function CounterLabel(count: nat): (text: string)
    ensures text == "Friend Referred" <==> count == 1
    ensures text == "Friend Referred" || text == "Friends Referred"
  {
    if count == 1 then "Friend Referred" else "Friends Referred"
  }

  /** The hint under the link: none once the eBook is unlocked. */
  datatype Motivation = NoHint | KeepSharingForEbook | ShareToReferMore

  function MotivationFor(count: nat): (m: Motivation)
    ensures m == NoHint <==> Tier2Unlocked(count)
    ensures m == KeepSharingForEbook <==> Tier1Unlocked(count) && !Tier2Unlocked(count)
    ensures m == ShareToReferMore <==> !Tier1Unlocked(count)
  {
    if Tier2Unlocked(count) then NoHint
    else if Tier1Unlocked(count) then KeepSharingForEbook
    else ShareToReferMore
  }

  /** The dashboard's link for a lead. */
  function DashboardLink(origin: string, lead: LeadData): (link: string)
    ensures CodeOfLink(origin, link) == Some(lead.referral_code)
  {
    LinkRoundTrip(origin, lead.referral_code);
    ReferralLink(origin, lead.referral_code)
  }

  // An independent statement of the policy as an ordered list of thresholds, each tier
  // measured from the threshold before it; the dashboard is this policy for [5, 10].

  function Clamp(x: real): (r: real)
    ensures 0.0 <= r <= 100.0
  {
    if x < 0.0 then 0.0 else if x > 100.0 then 100.0 else x
  }

  predicate Ascending(thresholds: seq<nat>) {
    forall i, j :: 0 <= i < j < |thresholds| ==> thresholds[i] < thresholds[j]
  }

  /** Progress of tier `k`: 100 once unlocked, 0 while an earlier tier is still locked,
      else the share of the way from the previous threshold. */
  function TierListProgress(thresholds: seq<nat>, k: nat, count: nat): real
    requires Ascending(thresholds) && k < |thresholds|
  {
    var previous := if k == 0 then 0 else thresholds[k - 1];
    if count >= thresholds[k] then 100.0
    else if count < previous then 0.0
    else Clamp(((count - previous) as real / (thresholds[k] - previous) as real) * 100.0)
  }

  /** Overall progress: the share of the highest threshold, clamped. */
  function TierListOverall(thresholds: seq<nat>, count: nat): real
    requires Ascending(thresholds) && |thresholds| > 0 && thresholds[|thresholds| - 1] > 0
  {
    Clamp((count as real / thresholds[|thresholds| - 1] as real) * 100.0)
  }

  lemma DivMonotonic(a: real, b: real, d: real)
    requires 0.0 < d && a <= b
    ensures a / d <= b / d
  {
    assert b / d - a / d == (b - a) / d;
  }

  /** Each tier's progress in the list policy is monotonic in the count and in [0, 100]. */
  lemma TierListMonotonic(thresholds: seq<nat>, k: nat, count: nat, later: nat)
    requires Ascending(thresholds) && k < |thresholds| && count <= later
    ensures 0.0 <= TierListProgress(thresholds, k, count) <= 100.0
    ensures TierListProgress(thresholds, k, count) <= TierListProgress(thresholds, k, later)
  {
    var previous := if k == 0 then 0 else thresholds[k - 1];
    if previous <= count && later < thresholds[k] {
      DivMonotonic((count - previous) as real, (later - previous) as real, (thresholds[k] - previous) as real);
    }
  }

  /** The dashboard's three percentages are the list policy's for thresholds 5 and 10. */
  lemma DashboardFollowsTierList(count: nat)
    ensures Tier1Progress(count) == TierListProgress([Tier1Goal, Tier2Goal], 0, count)
    ensures Tier2Progress(count) == TierListProgress([Tier1Goal, Tier2Goal], 1, count)
    ensures OverallProgress(count) == TierListOverall([Tier1Goal, Tier2Goal], count)
  {
  }
}

=== FILE: signup_flow.dfy ===
/** The sign-up panel of the landing page: the "welcome back" flag driven by the address
    remembered in the browser, the submit decision tree around `register_lead`, the
    three mutually exclusive views, and the "Not you?" reset. The browser storage, the
    remote procedure's answer, the zod address check and the random draws are inputs. */
module SignupFlow {
  import opened JsText
  import opened Leads
  import opened ReferralCode
  import WelcomeEmail

  /** The three browser-storage entries: `user_email`, `user_ref_code`, `user_ref_link`. */
  datatype Storage = Storage(email: Option<string>, refCode: Option<string>, refLink: Option<string>)

  const EmptyStorage: Storage := Storage(None, None, None)

  /** The component state this logic reads and writes. */
  datatype PanelState = PanelState(
    email: string,
    isLoading: bool,
    leadData: Option<LeadData>,
    showWelcomeBack: bool,
    storedUserEmail: Option<string>)

  const InitialPanel: PanelState := PanelState("", false, None, false, None)

  /** On mount: a remembered address switches to the welcome-back view. */
  function OnMount(s: PanelState, stored: Option<string>): (t: PanelState)
    ensures Truthy(stored) ==> t.showWelcomeBack && t.storedUserEmail == stored
    ensures !Truthy(stored) ==> t == s
    ensures t.email == s.email && t.leadData == s.leadData && t.isLoading == s.isLoading
  {
    if Truthy(stored) then s.(storedUserEmail := stored, showWelcomeBack := true) else s
  }

  /** `handleEmailChange`: the typed text is kept; a case-insensitive match with the
      remembered address turns the flag on, a mismatch turns it off only if it was on. */
  function OnEmailChange(s: PanelState, value: string, stored: Option<string>): (t: PanelState)
    ensures t.email == value
    ensures t.showWelcomeBack <==>
      (Truthy(stored) && EqualsIgnoringCase(value, stored.value)) || (s.showWelcomeBack && !Truthy(stored))
    ensures t.storedUserEmail == (if Truthy(stored) && EqualsIgnoringCase(value, stored.value) then stored else s.storedUserEmail)
    ensures t.isLoading == s.isLoading && t.leadData == s.leadData
  {
    var s1 := s.(email := value);
    if Truthy(stored) && Lower(value) == Lower(stored.value) then
      s1.(showWelcomeBack := true, storedUserEmail := stored)
    else if s.showWelcomeBack && Truthy(stored) && Lower(value) != Lower(stored.value) then
      s1.(showWelcomeBack := false)
    else s1
  }

  /** The outcome of the zod schema `string().trim().email().max(255)`: the trimmed text,
      or the message of the first failed check. */
  datatype Parsed = Valid(email: string) | Invalid(message: string)

  const MaxEmailLength: nat := 255

  function ParseEmail(input: string, isEmail: string -> bool): (r: Parsed)
    ensures r.Valid? <==> isEmail(Trim(input)) && |Trim(input)| <= MaxEmailLength
    ensures r.Valid? ==> r.email == Trim(input)
    ensures r.Invalid? ==>
      r.message == (if isEmail(Trim(input)) then "Email is too long" else "Please enter a valid email address")
  {
    var t := Trim(input);
    if !isEmail(t) then Invalid("Please enter a valid email address")
    else if |t| > MaxEmailLength then Invalid("Email is too long")
    else Valid(t)
  }

  /** How a submit ends. */
  datatype Outcome =
    | RejectedInput(message: string)   // schema failed: an error toast
    | ReturningUser                    // the remembered address: the welcome-back view
    | AlreadyRegistered(dashboardEmail: string)  // "23505": off to the dashboard page
    | Failed                           // any other error: the generic failure toast
    | Joined(code: string)             // the inline referral dashboard

  datatype SubmitResult = SubmitResult(
    state: PanelState,
    storage: Storage,
    call: Option<RegisterCall>,
    mailRequest: Option<WelcomeEmail.Body>,
    outcome: Outcome)

  /** The address as submitted: trimmed by the schema, then lower-cased. */
  function Normalized(email: string): string {
    Lower(Trim(email))
  }

  /** The entries written just before the remote call, with the client's code. */
  function ProvisionalStorage(email: string, origin: string, generated: string): Storage {
    Storage(Some(email), Some(generated), Some(ReferralLink(origin, generated)))
  }

  /** `handleSubmit` for one answer of `register_lead`; `generated` is the code made by
      `GenerateReferralCode` for this submit. */
  function Submit(s: PanelState, storage: Storage, isEmail: string -> bool, inbound: Option<string>,
                  origin: string, generated: string, answer: RegisterAnswer): (r: SubmitResult)
    // Nothing is written and nothing is called for a rejected or already-remembered address.
    ensures r.call.None? <==> r.outcome.RejectedInput? || r.outcome.ReturningUser?
    ensures r.call.None? ==> r.storage == storage && r.state.leadData == s.leadData && r.mailRequest.None?
    ensures r.outcome.RejectedInput? <==> ParseEmail(s.email, isEmail).Invalid?
    ensures r.outcome.RejectedInput? ==> r.state == s
    ensures r.outcome.ReturningUser? <==>
      ParseEmail(s.email, isEmail).Valid? && Truthy(storage.email)
      && Normalized(s.email) == Lower(storage.email.value)
    ensures r.outcome.ReturningUser? ==> r.state == s.(showWelcomeBack := true, storedUserEmail := storage.email)
    // The call carries the normalized address and the inbound code, if any.
    ensures r.call.Some? ==> r.call.value == RegisterCall(Normalized(s.email), InboundRefCode(inbound))
    ensures r.call.Some? ==> !r.state.isLoading && r.storage.email == Some(Normalized(s.email))
    // Without a success, the entries written before the call stay: the client's code and its link.
    ensures r.call.Some? && !r.outcome.Joined? ==> r.storage == ProvisionalStorage(Normalized(s.email), origin, generated)
    // A call leaves the typed text and the welcome-back flag as they were.
    ensures r.call.Some? ==>
      && r.state.email == s.email && r.state.showWelcomeBack == s.showWelcomeBack
      && r.state.storedUserEmail == s.storedUserEmail
    // A duplicate goes to the dashboard page and never sets the lead.
    ensures r.outcome.AlreadyRegistered? <==> r.call.Some? && answer == RegisterError(DuplicateEmailCode)
    ensures r.outcome.AlreadyRegistered? ==>
      r.outcome.dashboardEmail == Normalized(s.email) && r.state.leadData == s.leadData
    ensures r.outcome.Failed? <==> r.call.Some? && answer.RegisterError? && answer.errorCode != DuplicateEmailCode
    ensures r.outcome.Failed? ==> r.state.leadData == s.leadData && r.mailRequest.None?
    // Success: the server's code wins when it has one, and everything shows that code.
    ensures r.outcome.Joined? <==> r.call.Some? && answer.Assigned?
    ensures r.outcome.Joined? ==>
      && r.outcome.code == (if answer.code != "" then answer.code else generated)
      && r.state.leadData == Some(LeadData(Normalized(s.email), r.outcome.code, 0))
      && r.storage.refCode == Some(r.outcome.code)
      && r.storage.refLink == Some(ReferralLink(origin, r.outcome.code))
      && r.mailRequest == Some(WelcomeEmail.Fields(WelcomeEmail.Text(Normalized(s.email)), WelcomeEmail.Text(r.outcome.code)))
  {
    match ParseEmail(s.email, isEmail)
    case Invalid(message) => SubmitResult(s, storage, None, None, RejectedInput(message))
    case Valid(trimmed) =>
      var email := Lower(trimmed);
      if Truthy(storage.email) && email == Lower(storage.email.value) then
        SubmitResult(s.(showWelcomeBack := true, storedUserEmail := storage.email), storage, None, None, ReturningUser)
      else
        var written := ProvisionalStorage(email, origin, generated);
        var call := RegisterCall(email, InboundRefCode(inbound));
        var done := s.(isLoading := false);
        match answer
        case RegisterError(code) =>
          if code == DuplicateEmailCode then
            SubmitResult(done, written.(email := Some(email)), Some(call), None, AlreadyRegistered(email))
          else SubmitResult(done, written, Some(call), None, Failed)
        case Assigned(server) =>
          var final := if server != "" then server else generated;
          var stored := if server != "" then written.(refCode := Some(server), refLink := Some(ReferralLink(origin, server))) else written;
          var mail := WelcomeEmail.Fields(WelcomeEmail.Text(email), WelcomeEmail.Text(final));
          SubmitResult(done.(leadData := Some(LeadData(email, final, 0))), stored, Some(call), Some(mail), Joined(final))
  }

  /** A submit as the component runs it: the code is drawn, then the decision above. */
  method HandleSubmit(s: PanelState, storage: Storage, isEmail: string -> bool, inbound: Option<string>,
                      origin: string, draws: seq<int>, answer: RegisterAnswer)
    returns (generated: string, r: SubmitResult)
    requires ValidDraws(draws)
    ensures IsReferralCode(generated)
    ensures r == Submit(s, storage, isEmail, inbound, origin, generated, answer)
    ensures r.outcome.Joined? && answer.code == "" ==> IsReferralCode(r.outcome.code)
  {
    generated := GenerateReferralCode(draws);
    r := Submit(s, storage, isEmail, inbound, origin, generated, answer);
  }

  /** The address is written to storage before the remote call, so after a generic
      failure a second submit of the same address stops at the returning-user check and
      never reaches `register_lead` again. */
  lemma FailureRemembersAddress(s: PanelState, storage: Storage, isEmail: string -> bool, inbound: Option<string>,
                                origin: string, generated: string, answer: RegisterAnswer,
                                generated2: string, answer2: RegisterAnswer)
    requires Submit(s, storage, isEmail, inbound, origin, generated, answer).outcome.Failed?
    requires Normalized(s.email) != ""
    ensures var r := Submit(s, storage, isEmail, inbound, origin, generated, answer);
      var retry := Submit(r.state, r.storage, isEmail, inbound, origin, generated2, answer2);
      retry.outcome == ReturningUser && retry.call.None?
  {
    var r := Submit(s, storage, isEmail, inbound, origin, generated, answer);
    LowerIdempotent(Trim(s.email));
    assert r.state.email == s.email;
  }

  /** The message the welcome-mail function would get from a successful submit passes its
      presence checks on both fields whenever the address is non-empty. */
  lemma JoinedMailRequestHasFields(s: PanelState, storage: Storage, isEmail: string -> bool, inbound: Option<string>,
                                   origin: string, generated: string, answer: RegisterAnswer)
    requires IsReferralCode(generated)
    requires Submit(s, storage, isEmail, inbound, origin, generated, answer).outcome.Joined?
    requires Normalized(s.email) != ""
    ensures var body := Submit(s, storage, isEmail, inbound, origin, generated, answer).mailRequest.value;
      WelcomeEmail.Present(body.email) && WelcomeEmail.Present(body.referralCode)
  {
  }

  /** From the sign-up form, a successful submit switches the panel to the referral
      dashboard of the new lead, with the code that was shown and no referrals yet. */
  lemma JoinShowsDashboard(s: PanelState, storage: Storage, isEmail: string -> bool, inbound: Option<string>,
                           origin: string, generated: string, answer: RegisterAnswer)
    requires ViewOf(s).SignUpView?
    requires Submit(s, storage, isEmail, inbound, origin, generated, answer).outcome.Joined?
    ensures var r := Submit(s, storage, isEmail, inbound, origin, generated, answer);
      ViewOf(r.state) == ReferralView(LeadData(Normalized(s.email), r.outcome.code, 0))
  {
  }

  /** The panel shows exactly one of three views. */
  datatype View = WelcomeBackView(email: Option<string>) | SignUpView | ReferralView(lead: LeadData)

  function ViewOf(s: PanelState): (v: View)
    ensures v.WelcomeBackView? <==> s.showWelcomeBack
    ensures v.WelcomeBackView? ==> v.email == s.storedUserEmail
    ensures v.SignUpView? <==> !s.showWelcomeBack && s.leadData.None?
    ensures v.ReferralView? <==> !s.showWelcomeBack && s.leadData.Some?
    ensures v.ReferralView? ==> v.lead == s.leadData.value
  {
    if s.showWelcomeBack then WelcomeBackView(s.storedUserEmail)
    else if s.leadData.None? then SignUpView
    else ReferralView(s.leadData.value)
  }

  /** "Continue to Dashboard": the remembered address, if there is one, is where it goes. */
  function ContinueTarget(s: PanelState): (target: Option<string>)
    ensures target.Some? <==> Truthy(s.storedUserEmail)
    ensures target.Some? ==> target == s.storedUserEmail
  {
    if Truthy(s.storedUserEmail) then s.storedUserEmail else None
  }

  /** "Not you?": all three storage entries are removed and the flag, the remembered
      address and the input are cleared; the lead, if any, stays. */
  function NotYou(s: PanelState): (r: (PanelState, Storage))
    ensures r.1 == EmptyStorage
    ensures !r.0.showWelcomeBack && r.0.storedUserEmail.None? && r.0.email == ""
    ensures r.0.leadData == s.leadData
    ensures ViewOf(r.0).SignUpView? <==> s.leadData.None?
  {
    (s.(showWelcomeBack := false, storedUserEmail := None, email := ""), EmptyStorage)
  }

  /** After "Not you?", with nothing remembered, typing never brings the welcome-back
      view back. */
  lemma NotYouStaysSignedOut(s: PanelState, value: string)
    ensures !OnEmailChange(NotYou(s).0, value, NotYou(s).1.email).showWelcomeBack
  {
  }
}

=== FILE: welcome_email.dfy ===
/** The `send-welcome-email` serverless function: an ordered gate of checks on the
    request, ending in one status code, that sends the welcome mail only to a lead whose
    (email, referral code) pair is on record. The environment key, the leads-table
    query and the mail provider's answer are inputs. */
module WelcomeEmail {
  import opened JsText
  import opened EmailRegex

  /** A field of the JSON body: missing or null, a string, or any other JSON value. */
  datatype Field = Missing | Text(text: string) | NotText

  /** `!x || typeof x !== "string"` fails exactly when this does not hold. */
  predicate Present(f: Field) {
    f.Text? && f.text != ""
  }

  /** The request body: not JSON (or `null`, whose destructuring throws), or the two
      fields read from it. A JSON value without the fields reads as two `Missing`. */
  datatype Body = Unreadable | Fields(email: Field, referralCode: Field)

  datatype Request = Request(httpMethod: string, body: Body)

  /** The answer of the leads-table query for one (email, referral_code) pair: no client
      at all (the database URL or the service key is not configured, so creating the
      client throws), an error, or the set of pairs the table holds. Both columns are
      compared exactly. */
  datatype LeadQuery = NoClient | QueryFailed | Table(pairs: set<(string, string)>)

  const Sender: string := "Global Gains League <onboarding@resend.dev>"
  const Subject: string := "Welcome to Global Gains League! \U{1F3C6}"

  /** The fixed markup around the referral code in the mail body; its wording is not
      modelled, only that the code sits between these two parts. */
  const MarkupBeforeCode: string := "<html><!-- welcome header -->"
  const MarkupAfterCode: string := "<!-- invitation and footer --></html>"

  datatype Mail = Mail(from: string, to: seq<string>, subject: string, html: string)

  function WelcomeMail(email: string, referralCode: string): (m: Mail)
    ensures m.to == [email]
    ensures |m.html| == |MarkupBeforeCode| + |referralCode| + |MarkupAfterCode|
    ensures m.html[|MarkupBeforeCode|..|MarkupBeforeCode| + |referralCode|] == referralCode
  {
    Mail(Sender, [email], Subject, MarkupBeforeCode + referralCode + MarkupAfterCode)
  }

  /** What the response carries: only the CORS headers, an `{ error }` object, or the
      provider's JSON answer. */
  datatype Payload = CorsOnly | ErrorMessage(message: string) | ProviderAnswer

  datatype Response = Response(status: nat, payload: Payload)

  /** The handler's result: the response and the mail handed to the provider, if any. */
  datatype Outcome = Outcome(response: Response, sent: Option<Mail>)

  const Generic500: Response := Response(500, ErrorMessage("An error occurred"))

  function Reply(status: nat, message: string): Response {
    Response(status, ErrorMessage(message))
  }

  /** The checks before the lead lookup, in the order the handler makes them; `None`
      when the request gets through to the lookup. */
  function Gate(req: Request, apiKey: Option<string>): (r: Option<Response>)
    ensures req.httpMethod == "OPTIONS" ==> r == Some(Response(200, CorsOnly))
    ensures req.httpMethod != "OPTIONS" && !Truthy(apiKey) ==> r == Some(Generic500)
    ensures req.httpMethod != "OPTIONS" && Truthy(apiKey) && req.body.Unreadable? ==> r == Some(Generic500)
    ensures r.None? <==>
      && req.httpMethod != "OPTIONS" && Truthy(apiKey) && req.body.Fields?
      && Present(req.body.email) && RegexMatches(req.body.email.text)
      && Present(req.body.referralCode)
  {
    if req.httpMethod == "OPTIONS" then Some(Response(200, CorsOnly))
    else if !Truthy(apiKey) then Some(Generic500)
    else if req.body.Unreadable? then Some(Generic500)
    else if !Present(req.body.email) then Some(Reply(400, "Email is required"))
    else if !RegexMatches(req.body.email.text) then Some(Reply(400, "Invalid email format"))
    else if !Present(req.body.referralCode) then Some(Reply(400, "Referral code is required"))
    else None
  }

  /** The whole handler. */
  function Handle(req: Request, apiKey: Option<string>, leads: LeadQuery, providerOk: bool): (out: Outcome)
    ensures out.response.status in {200, 400, 404, 500}
    // A request the gate stops gets the gate's answer and no mail.
    ensures Gate(req, apiKey).Some? ==> out == Outcome(Gate(req, apiKey).value, None)
    ensures out.sent.Some? <==>
      && Gate(req, apiKey).None? && leads.Table?
      && (req.body.email.text, req.body.referralCode.text) in leads.pairs
    ensures out.sent.Some? ==> out.sent.value == WelcomeMail(req.body.email.text, req.body.referralCode.text)
    ensures out.response.status == 200 <==> req.httpMethod == "OPTIONS" || (out.sent.Some? && providerOk)
  {
    match Gate(req, apiKey)
    case Some(early) => Outcome(early, None)
    case None =>
      var email := req.body.email.text;
      var code := req.body.referralCode.text;
      match leads
      case NoClient => Outcome(Generic500, None)
      case QueryFailed => Outcome(Reply(500, "Failed to verify lead"), None)
      case Table(pairs) =>
        if (email, code) !in pairs then Outcome(Reply(404, "Lead not found"), None)
        else
          var mail := WelcomeMail(email, code);
          if providerOk then Outcome(Response(200, ProviderAnswer), Some(mail))
          else Outcome(Generic500, Some(mail))
  }

  /** A preflight request is answered with the CORS headers alone, whatever else holds. */
  lemma PreflightShortCircuits(req: Request, apiKey: Option<string>, leads: LeadQuery, providerOk: bool)
    requires req.httpMethod == "OPTIONS"
    ensures Handle(req, apiKey, leads, providerOk) == Outcome(Response(200, CorsOnly), None)
  {
  }

  /** Without the provider key every other request fails with the generic 500 before its
      body is looked at: two requests differing only in body get the same answer. */
  lemma MissingKeyFirst(req: Request, other: Body, apiKey: Option<string>, leads: LeadQuery, providerOk: bool)
    requires req.httpMethod != "OPTIONS" && !Truthy(apiKey)
    ensures Handle(req, apiKey, leads, providerOk) == Outcome(Generic500, None)
    ensures Handle(req.(body := other), apiKey, leads, providerOk) == Handle(req, apiKey, leads, providerOk)
  {
  }

  /** The order of the body checks: a missing email is reported whatever the code, and
      the code is only ever reported for a well-formed email. */
  lemma BodyCheckOrder(req: Request, apiKey: Option<string>, leads: LeadQuery, providerOk: bool)
    requires req.httpMethod != "OPTIONS" && Truthy(apiKey) && req.body.Fields?
    ensures !Present(req.body.email) ==>
      Handle(req, apiKey, leads, providerOk) == Outcome(Reply(400, "Email is required"), None)
    ensures Present(req.body.email) && !RegexMatches(req.body.email.text) ==>
      Handle(req, apiKey, leads, providerOk) == Outcome(Reply(400, "Invalid email format"), None)
    ensures Handle(req, apiKey, leads, providerOk).response == Reply(400, "Referral code is required") <==>
      Present(req.body.email) && RegexMatches(req.body.email.text) && !Present(req.body.referralCode)
  {
  }

  /** Past the gate, the lookup decides: a missing client is the generic 500, a query
      error a 500, an unknown pair a 404, and a known pair a mail to that address alone,
      carrying that code; a provider failure is the generic 500. */
  lemma LookupDecides(req: Request, apiKey: Option<string>, leads: LeadQuery, providerOk: bool)
    requires Gate(req, apiKey).None?
    ensures leads.NoClient? ==> Handle(req, apiKey, leads, providerOk) == Outcome(Generic500, None)
    ensures leads.QueryFailed? ==>
      Handle(req, apiKey, leads, providerOk) == Outcome(Reply(500, "Failed to verify lead"), None)
    ensures leads.Table? && (req.body.email.text, req.body.referralCode.text) !in leads.pairs ==>
      Handle(req, apiKey, leads, providerOk) == Outcome(Reply(404, "Lead not found"), None)
    ensures Handle(req, apiKey, leads, providerOk).sent.Some? ==>
      && Handle(req, apiKey, leads, providerOk).sent.value.to == [req.body.email.text]
      && (!providerOk ==> Handle(req, apiKey, leads, providerOk).response == Generic500)
  {
  }
}
